=== FILE: README.md ===
# sidekick client core, modelled in Dafny

This project models the Python client `sidekick` for two services of the Peltarion
platform.

- **Prediction.** A deployed model's endpoint takes rows of encoded features and
  returns rows of encoded predictions. The client encodes each feature with one of
  five encoders:
  - numeric, categorical and text values pass through unchanged;
  - numpy arrays and PIL images become `data:<media>;base64,<payload>` URLs.
  
  It then cuts the items into batches of 128, posts one request per batch and
  decodes the response rows. It also reads the input and output feature specs
  from the deployment's OpenAPI schema.
- **Dataset upload.** The client creates a dataset wrapper, validates and uploads
  local files into it, and polls the upload jobs until none is processing. It
  raises on a failed job, and otherwise completes the upload.

Every operation is a pure function from its inputs to a `Result`. An `Err` stands
for the exception the Python code raises, and `Errors.KindOf` names that
exception's class. An exception raised inside a foreign library (`LibraryFailure`)
carries its class with it. A Python generator that yields items before it raises is
modelled as a `Partial` or a `Run`: the items done, plus the failure if there was
one.

Modules:

| module | models |
|---|---|
| `Results`, `Values`, `Errors` | the result types, the feature values and the errors |
| `Strings` | `split(sep, 1)` and `lower()` |
| `DataUrl` | data-URL framing, section 3 of RFC 2397 |
| `Encode` | `sidekick/encode.py` |
| `Deployment` | `sidekick/deployment.py` |
| `DatasetClient` and `Polling` | `sidekick/dataset_client.py` |
| `UploadExample` | `examples/dataset_client_example.py` |

Code outside the client becomes parameters:

- The foreign serialisers are fields of a `Library` record: `np.save`/`np.load`, PIL's
  `save`/`open`/`convert`, and base64. A `Lawful` predicate states the round-trip facts
  those libraries are relied on for. Only the round-trip lemmas require it.
- The HTTP layer is parameters:
  - `Transport` answers a prediction request;
  - `Connect` takes the fetch of `openapi.json` as a `Result` of `Schemas`, the schema's
    two property lists, each with the missing key on its path as the alternative;
  - `Server` holds what the client methods return to the upload driver;
  - `isFile` answers `Path.exists`.

## Model

| member | source | states |
|---|---|---|
| Strings.SplitOnce | sidekick/encode.py:73-75 | `split(sep, 1)` unpacked into two names fails exactly when `sep` is absent. Otherwise the string is `before + sep + after`, with no `sep` in `before`. |
| Strings.SplitOnceAt | sidekick/encode.py:73-75 | Splitting `before + sep + after`, where `before` lacks `sep`, returns exactly those two pieces. This is the converse of `SplitOnce`'s contract. |
| Strings.Lower | sidekick/encode.py:168 | `lower()` keeps the length and maps each character by ASCII lower-casing. |
| Strings.LowerIsIdempotent | sidekick/encode.py:168 | Lower-casing twice equals lower-casing once. No non-letter character is added or removed. |
| DataUrl.Parse | sidekick/encode.py:72-77 | A parse that succeeds rebuilds the input as `scheme:media;params,payload`, with each separator at its first occurrence. A string without `,` is rejected. |
| DataUrl.ParseFindsParts | sidekick/encode.py:72-77 | Every string of that shape whose pieces keep the separators in place parses into exactly those pieces. So the split is unique, and `Parse` succeeds on exactly these strings. |
| DataUrl.ParseFrame | sidekick/encode.py:66-77 | Parsing the encoder's `data:<media>;base64,<payload>` recovers the media type and the payload whenever the media type has no `,` and no `;`. |
| DataUrl.ParseRejectsHeaderWithoutScheme | sidekick/encode.py:74-77 | A header without `:` is not a data URL. This is the `ValueError` path of the second split. |
| DataUrl.ParseRejectsMediaWithoutParams | sidekick/encode.py:75-77 | A media description without `;` is not a data URL. This is the `ValueError` path of the third split. |
| Results.MapPrefix | sidekick/deployment.py:40-52 | A generator over a list stops at the first failing element. The items it yielded are the results for the elements before that one. |
| Results.MapAll | sidekick/deployment.py:17-27 | A loop that builds a list succeeds exactly when every element succeeds, and then holds their results in order. Otherwise it raises the first element's failure, and every earlier element succeeded. |
| Results.MatchesAt | sidekick/deployment.py:104-109 | Pairing results batch by batch gives, for every `k`, result `k` is what batch `k` produced. |
| Encode.CompatibilityOf | sidekick/encode.py:207-210 | The dict built from the (type, encoder) pairs maps each type only to an encoder of the registry that expects it. It maps every type some encoder expects. |
| Encode.Expects | sidekick/encode.py:87-175 | Each encoder expects exactly one native type, except the numeric encoder, which expects both `int` and `float`. |
| Encode.ExpectedTypesAreDisjoint | sidekick/encode.py:87-175 | No two encoders' `expects()` share a type. |
| Encode.CompatibilityIsTheExpectingEncoder | sidekick/encode.py:198-210 | `ENCODER_COMPATIBILITY` covers every native type. It maps a type to an encoder exactly when that encoder expects the type. |
| Encode.GetEncoder | sidekick/encode.py:221-224 | The lookup succeeds exactly for a registered dtype. Numeric with an empty shape fails with `IndexError`, and an unknown dtype with `KeyError`. Numeric goes to the numpy encoder exactly when the shape has several dimensions or more than one element. Other dtypes get their registry entry. |
| Encode.GetEncoderExamples | sidekick/encode.py:221-224 | Shape `(1,)` stays numeric. Shapes `(2,)`, `(2, 2)` and `(1, 1)` go to numpy. An unknown dtype is a `KeyError`. |
| Encode.CheckType | sidekick/encode.py:43-48 | The check passes exactly when the value's native type is one the encoder expects. Otherwise it raises `TypeError` naming both the expected and the received type. |
| Encode.CheckTypeMatchesCompatibility | sidekick/encode.py:43-48 | A value passes an encoder's type check exactly when that encoder is the compatibility table's entry for the value's type. |
| Encode.CheckShape | sidekick/encode.py:92-148 | Categorical passes exactly when the number of entries equals `shape[0]`, and an empty shape is an `IndexError`. Numpy passes exactly when the array's shape equals the declared one. The other encoders always pass. Rejections are `ValueError` or `IndexError`. |
| Encode.CheckShapeExamples | sidekick/encode.py:92-148 | `{'a', 'b'}` fits `(2,)` but not `(3,)`. An array of shape `(100, 10, 3)` does not fit `(99, 10, 3)`. |
| Encode.FileExtension | sidekick/encode.py:164-168 | The extension is empty for the plain encoders and `npy` for arrays. For an image it succeeds exactly when the image has a format, and is that format lower-cased. An image without a format raises `ValueError`. |
| Encode.MediaType | sidekick/encode.py:139-172 | Arrays are `application/x.peltarion.npy`. An image's media type is `image/` plus its lower-cased format, and exists exactly when the image has a format. |
| Encode.ImageMediaTypeExamples | sidekick/encode.py:164-172 | An image without a format has neither an extension nor a media type. A `PNG` image has `png` and `image/png`. |
| Encode.OpaqueMode | sidekick/encode.py:183-186 | `RGBA` becomes `RGB`, `LA` becomes `L`, and any other mode is kept. The result never has alpha. |
| Encode.Convert | sidekick/encode.py:183-186 | `convert(mode)` gives an image of the requested mode that carries no format, which is why `encode` saves under the format it read beforehand. |
| Encode.ImageToSave | sidekick/encode.py:180-189 | The image handed to `save` has the alpha-free mode. An image without alpha is saved as it is. |
| Encode.EncodeBytes | sidekick/encode.py:150-189 | Arrays are handed to `np.save`. An image is handed to PIL's `save` in its alpha-free mode (see `ImageToSave`) and under its original format. |
| Encode.DecodeBytes | sidekick/encode.py:156-195 | Arrays come from `np.load`, and images from `Image.open`. |
| Encode.BytesRoundTrip | sidekick/encode.py:150-195 | Bytes a binary encoder wrote read back as a value of the same native type. An array keeps its shape, and an image keeps its format up to case. |
| Encode.EncodeJson | sidekick/encode.py:65-69 | Plain encoders return the value. Binary encoders compute the media type before the payload, so a missing format fails before anything is saved. On success they return the data URL of the base64 of the saved bytes. |
| Encode.DecodeJson | sidekick/encode.py:71-84 | Plain encoders return the wire value. For a binary encoder, an image is a `TypeError` (its `split` takes no separator), any other non-string is an `AttributeError`, and an unparsable string is "Not a valid Data URL". For a data URL, a base64 error or an error of the encoder's `decode` is raised as it is. Otherwise the result is the decoded value when the declared media type is the value's, the media-type error when the value has none, and a mismatch error naming both media types otherwise. |
| Encode.DecodeRejectsForeignMediaType | sidekick/encode.py:78-83 | A well-formed data URL whose declared media type differs from what its payload decodes to is rejected with both media types. |
| Encode.EncodeFeature | sidekick/encode.py:227-231 | The errors come in the code's order: the encoder lookup's error, the type check's `TypeError` naming both types, then the shape check's error. Once the value passes both checks, the result is exactly the encoder's `encode_json`, its error included (e.g. an image without a format). |
| Encode.DecodeFeature | sidekick/encode.py:234-239 | The errors come in the order: the encoder lookup's error, `decode_json`'s error, the type check's `TypeError` naming the expected types and the decoded value's type, then the shape check's error on the decoded value. A success is the decoded value, and it passes both checks. |
| Encode.FileExtensionTableAgrees | sidekick/encode.py:213-218 | `FILE_EXTENSION_ENCODERS` maps each extension an encoder reports back to that encoder. |
| Encode.ImageMediaTypeIsFramable | sidekick/encode.py:170-172 | An image's media type contains no `,` or `;` when its format contains none. |
| Encode.BinaryRoundTrip | sidekick/encode.py:65-84 | What a binary encoder's `encode_json` emits is parsed back by `decode_json` into what the foreign decoder makes of the saved bytes. For that value, the media-type check passes. |
| Encode.ArrayRoundTrip | sidekick/encode.py:139-159 | An encoded array decodes to an array of the same shape. |
| Encode.ImageRoundTrip | sidekick/encode.py:164-195 | An encoded image decodes to an image whose format matches the original up to case. |
| Encode.FeatureRoundTrip | sidekick/encode.py:227-239 | `decode_feature(encode_feature(v))` succeeds under the same spec and keeps the native type. A plain encoder gives back `v` itself. A numpy one gives an array of the declared shape, and an image one an image of the same format. |
| Encode.PlainFeatureRoundTrip | sidekick/encode.py:97-131 | Through a numeric, categorical or text encoder, the round trip is the identity. |
| Encode.BinaryFeatureRoundTrip | sidekick/encode.py:227-239 | Through a binary encoder, the round trip gives exactly what the foreign decoder makes of the saved bytes. |
| Encode.DecodeFeatureAccepts | sidekick/encode.py:234-239 | Decoding succeeds with `decode_json`'s value once that value passes the type and shape checks. |
| Deployment.RowOf | sidekick/deployment.py:19-26 | The dict built by writing each spec's value under its name has exactly the spec names as keys. Each name holds the value of the last spec with that name. |
| Deployment.RowOfStep | sidekick/deployment.py:19-26 | One more write keeps that contract. |
| Deployment.EncodeField | sidekick/deployment.py:20-26 | A feature the item lacks raises `ValueError` naming it, before anything is encoded. Otherwise the row's value is `encode_feature` of the item's value. |
| Deployment.EncodeRow | sidekick/deployment.py:19-26 | A row succeeds exactly when every feature encodes, with one key per spec name. Otherwise it raises the first failing feature's error. |
| Deployment.PredictionRequest | sidekick/deployment.py:15-28 | The request succeeds exactly when every item's row encodes. It then holds one row per item, in order. Otherwise it raises the first failing item's error. |
| Deployment.RowNamesMissingFeature | sidekick/deployment.py:20-24 | A row lacking a feature fails naming the first feature it lacks. |
| Deployment.MissingFeatureIsNamed | sidekick/deployment.py:20-24 | A one-item request lacking a feature, whose earlier features all encode, raises `ValueError` naming that feature. |
| Deployment.MissingFeatureFailsRequest | sidekick/deployment.py:18-24 | Any item lacking any input feature makes the whole request fail. No partial request is built. |
| Deployment.DecodeField | sidekick/deployment.py:42-51 | A feature the response row lacks raises `ValueError` naming it. Otherwise the item's value is `decode_feature` of the row's value. |
| Deployment.DecodeRow | sidekick/deployment.py:41-51 | An output item succeeds exactly when every feature decodes, with one key per spec name. Otherwise it raises the first failing feature's error. |
| Deployment.ParsePrediction | sidekick/deployment.py:31-52 | `errorCode` raises `IOError` before anything is yielded, and a missing `rows` raises `ValueError`. Otherwise the rows are decoded in order and the yielded items are their decodings. A failure is the first row that does not decode. |
| Deployment.Batches | sidekick/deployment.py:103-107 | The `islice` batches are non-empty, hold at most 128 items, and all but the last are full. |
| Deployment.BatchesFlatten | sidekick/deployment.py:103-107 | Put back together, the batches are the input, in order. |
| Deployment.BatchesCount | sidekick/deployment.py:103-107 | There are `ceil(n / 128)` batches. |
| Deployment.BatchesAppend | sidekick/deployment.py:103-107 | Batching a concatenation whose first part fills whole batches batches each part on its own. |
| Deployment.BatchStep | sidekick/deployment.py:109-119 | A batch sends a request exactly when it encodes, and that request is the batch's prediction request. An encoding failure or a transport failure yields nothing and raises that error. Otherwise the items yielded and the error raised are those of `parse_prediction` on the response. |
| Deployment.PredictBatches | sidekick/deployment.py:104-119 | Request `k` is the prediction request of batch `k`. At most one request is sent per batch, and every batch's request is sent when nothing raised. |
| Deployment.ThenIsAssociative | sidekick/deployment.py:104-119 | Running three parts of a generator in sequence does not depend on how they are grouped. |
| Deployment.PredictBatchesAppend | sidekick/deployment.py:104-119 | Running the loop over `b1 + b2` is running it over `b1` and then, if nothing raised, over `b2`. |
| Deployment.FirstFailure | sidekick/deployment.py:104-119 | The index returned is that of the first pass that raises: every earlier pass raised nothing. It is the number of passes when none raises. |
| Deployment.ChainYields | sidekick/deployment.py:104-119 | Passes run in sequence raise exactly when one of them raises, and then raise the first such error. They yield every earlier pass's items in order, followed by what the failing pass yielded before it raised. |
| Deployment.PredictBatchesChains | sidekick/deployment.py:104-119 | The loop over the batches is the passes over each batch, run in sequence. |
| Deployment.PredictLazy | sidekick/deployment.py:101-119 | Every request holds between 1 and 128 rows, and request `k` encodes batch `k`. Without a failure, `ceil(n / 128)` requests are sent. |
| Deployment.PredictLazyAppend | sidekick/deployment.py:101-119 | Predicting on items whose first part fills whole batches yields the first part's outputs and then the second part's. |
| Deployment.PredictLazyYields | sidekick/deployment.py:101-119 | `predict_lazy` raises exactly when the pass over some batch raises, with the first such error. It yields every earlier batch's items in batch order, then what the failing batch yielded before it raised. |
| Deployment.PredictLazyOneBatch | sidekick/deployment.py:103-119 | Up to 128 items make exactly one pass of the loop. |
| Deployment.PredictMany | sidekick/deployment.py:121-122 | `list(predict_lazy(items))` is every batch's items in order when no pass raises. Otherwise it is the error of the first pass that raises, and the items yielded before it are lost. |
| Deployment.Predict | sidekick/deployment.py:124-125 | Stated against the one request `predict` makes. An encoding failure or a transport failure is raised. A response with `errorCode` raises `IOError`, and one without `rows` raises `ValueError`. An empty `rows` raises `IndexError`. Otherwise the result succeeds exactly when every row decodes, and is then the first row decoded. If not, it is the error of the first row that fails. |
| Deployment.PredictStep | sidekick/deployment.py:109-125 | The first item of one item's pass, or the error it raises, is what `predict` promises of the response. |
| Deployment.FirstRow | sidekick/deployment.py:31-52 | The first item `parse_prediction` yields, or the error it raises first, is what `predict` promises of the response. |
| Deployment.GetFeatureSpecs | sidekick/deployment.py:55-63 | This succeeds exactly when every property carries `extensions`, `x-peltarion` in it, and both `type` and `shape` in that. There is then one spec per property, in schema order, with the property's name, type and shape. Otherwise the error is the `KeyError` of the first incomplete property. |
| Deployment.SpecOf | sidekick/deployment.py:57-61 | A property gives a spec exactly when the whole path `extensions`, `x-peltarion`, `type` and `shape` is present. The key raised is the first one missing along that path, each of the four cases stated. |
| Deployment.DistinctPropertiesGiveDistinctNames | sidekick/deployment.py:55-63 | A schema with distinct property names gives specs with distinct names. |
| Deployment.Connect | sidekick/deployment.py:80-91 | A failed fetch of the schema is raised as it is. Otherwise connecting succeeds exactly when both property lists are present and both parse. The input specs are read first. A missing key on either path is raised as a `KeyError` naming that key. A property list that does not parse raises its `get_feature_specs` error, and every failure after the fetch is a `KeyError`. |
| DatasetClient.StatusName | sidekick/dataset_client.py:20-21 | The name `to_dict` writes looks back up to the same status. |
| DatasetClient.StatusNamed | sidekick/dataset_client.py:27 | `Status[name]` succeeds exactly on `PROCESSING`, `SUCCESS` and `FAILED`. Any other name raises `KeyError`. |
| DatasetClient.StatusNamesAreExact | sidekick/dataset_client.py:20-27 | A name that looks up to a status is that status's name. |
| DatasetClient.ToDict | sidekick/dataset_client.py:20-21 | The dict has exactly the keys `uploadId` and `status`, holding the job's id and its status name. |
| DatasetClient.FromDict | sidekick/dataset_client.py:23-29 | Reading succeeds exactly when both keys are present and the status is known. `uploadId` is looked up first. Every failure is a `KeyError`. |
| DatasetClient.JobRoundTrip | sidekick/dataset_client.py:20-29 | `from_dict(to_dict(job))` is the job. |
| DatasetClient.DictRoundTrip | sidekick/dataset_client.py:20-29 | A two-key dict that reads as a job writes back unchanged. |
| DatasetClient.FileName | sidekick/dataset_client.py:61 | `Path.name` is the tail of the path after its last `/`. |
| DatasetClient.Suffix | sidekick/dataset_client.py:65 | `Path.suffix` is non-empty exactly when the file name has a last dot that neither starts nor ends it. It is then a dot followed by at least one character, with no other dot and no `/`. |
| DatasetClient.NameSuffix | sidekick/dataset_client.py:65 | A file name's suffix is non-empty exactly when its last dot neither starts nor ends the name. It is then the tail of the name from that dot, shorter than the name. |
| DatasetClient.SuffixEndsPath | sidekick/dataset_client.py:65 | The suffix is a tail of the path. |
| DatasetClient.SuffixOfNamedFile | sidekick/dataset_client.py:65-70 | `dir/stem.ext`, with a non-empty stem, has suffix `.ext`. |
| DatasetClient.HiddenFileHasNoSuffix | sidekick/dataset_client.py:65-70 | `dir/.ext` has no suffix. |
| DatasetClient.ValidateFile | sidekick/dataset_client.py:60-71 | Validation succeeds exactly for an existing file whose suffix is in `FILE_EXTENSIONS`, and gives that suffix's content type. A missing file is `FileNotFoundError`, checked first. Any other suffix is `ValueError`. |
| DatasetClient.MissingFileExample | sidekick/dataset_client.py:62-63 | A missing `a.csv` is reported as missing. |
| DatasetClient.UnsupportedFileExample | sidekick/dataset_client.py:65-70 | An existing `b.jpeg` is rejected with suffix `.jpeg`. |
| DatasetClient.NpyFileExample | sidekick/dataset_client.py:65-71 | An existing `c.npy` is uploaded as `application/npy`. |
| DatasetClient.Field | sidekick/dataset_client.py:57-58 | `response.json()[key]` succeeds exactly when the response succeeded and has the key. A transport failure propagates, and a missing key is a `KeyError`. |
| DatasetClient.WrapperId | sidekick/dataset_client.py:57-58 | `create_wrapper` returns `datasetWrapperId` exactly when the response succeeded and has it. A transport failure propagates, and a missing key is a `KeyError`. |
| DatasetClient.UploadId | sidekick/dataset_client.py:82-84 | `upload_file` returns `uploadId` exactly when the response succeeded and has it. A transport failure propagates, and a missing key is a `KeyError`. |
| DatasetClient.UploadRequest | sidekick/dataset_client.py:60-81 | A request is built exactly when the file validates. It goes to the wrapper's upload endpoint with the validated content type. Otherwise the validation error is raised. |
| DatasetClient.GetStatus | sidekick/dataset_client.py:86-92 | This succeeds exactly when `uploadStatuses` is present and every entry reads as a job. It then gives one job per entry, in order. |
| DatasetClient.GetStatusRoundTrip | sidekick/dataset_client.py:86-92 | The jobs a server lists come back from `get_status` unchanged. |
| Polling.Absorb | sidekick/dataset_client.py:113-121 | A failed job's id is appended to the failed list. A success is appended only if its id is new. A processing job sets `ongoing`. |
| Polling.AbsorbAll | sidekick/dataset_client.py:113-121 | Over a tick's jobs: the failed list grows by the tick's failed ids, in order. `ongoing` is set iff some job is processing. The successful list keeps its prefix and gains exactly the tick's success ids, and stays free of repeats. |
| Polling.Update | sidekick/dataset_client.py:109-121 | After `update`, `ongoing` holds iff some job of the tick is processing. The failed list grows by the tick's failed ids, and the successful list stays an extension without repeats. |
| Polling.FailedIdsEmpty | sidekick/dataset_client.py:114-115 | A tick adds no failed id exactly when no job in it failed. |
| Polling.KnownSuccessesAddNothing | sidekick/dataset_client.py:116-118 | A tick whose successes are all known leaves the successful list unchanged. |
| Polling.UpdateTwiceAddsNoSuccess | sidekick/dataset_client.py:116-118 | Seeing the same tick twice reports no success twice. |
| Polling.SuccessesStayDistinct | sidekick/dataset_client.py:116-118 | Across any sequence of ticks, the successful list never holds an id twice. The failed list is every tick's failed ids, in order. |
| Polling.UpdateAllSnoc | sidekick/dataset_client.py:109-121 | One tick more is one `update` more. |
| Polling.FreshRun | sidekick/dataset_client.py:103-121 | Starting from `__init__`'s state (nothing seen, `ongoing`), polling goes on exactly while no tick was read or the last tick read had a job processing. The failed ids are every tick's, in order, and no success is recorded twice. |
| Polling.ScenarioRest | sidekick/dataset_client.py:113-121 | A processing job followed by two failed ones sets `ongoing` and records both failures, in order. |
| Polling.FirstTickScenario | sidekick/dataset_client.py:109-121 | A tick where jobs 1 and 2 succeed, 3 is processing, and 4 and 5 fail gives successes `[1, 2]`, failures `[4, 5]` and `ongoing`. A repeat tick where 1 and 2 succeed adds no success. |
| UploadExample.Workers | examples/dataset_client_example.py:20 | The pool size is at most 10 and at most the number of files, and is one of the two. |
| UploadExample.AttemptUpload | sidekick/dataset_client.py:60-84 | A file's upload request is sent exactly when it validates, to the wrapper, with its content type. A file that does not validate fails with the validation error. A sent request fails exactly when the service rejects the upload, and then with the service's error. |
| UploadExample.SubmitAll | examples/dataset_client_example.py:21-25 | Attempt `i` is the attempt for file `i`, and every request sent goes to the wrapper. |
| UploadExample.SentAll | examples/dataset_client_example.py:21-25 | When every file validated, the requests sent are exactly one per file, in submission order. |
| UploadExample.FirstFailure | examples/dataset_client_example.py:27-28 | Nothing is raised by the futures exactly when no attempt failed. |
| UploadExample.FirstFailureIsFirst | examples/dataset_client_example.py:27-28 | The error raised is that of an attempt whose predecessors all succeeded. |
| UploadExample.Tick | examples/dataset_client_example.py:31-34 | One pass of the loop. A failed status request leaves `ongoing` cleared and is raised. Otherwise the tick is folded in by `update`, and failed jobs are raised exactly when some have been seen. |
| UploadExample.TickKeeps | examples/dataset_client_example.py:30-34 | A pass taken while polling goes on and nothing was raised keeps the loop's invariant. The poller stays `update` folded over the ticks read. |
| UploadExample.Poll | examples/dataset_client_example.py:30-34 | The loop reads at least one status when the service has any, and never more than it has. Every tick before the last one read came back, with a job still processing and no failed job. The poller is `update` folded over the ticks read, in order, from a fresh `Polling`. When the last status request failed, `ongoing` is cleared and that error is raised. A tick with failed jobs raises those ids. Otherwise the loop runs until nothing is processing or the statuses run out. |
| UploadExample.NoTickAfterSettledTick | examples/dataset_client_example.py:31-32 | On a script whose first status answer has nothing processing, no poller has read the second answer: the loop stops on the tick where `ongoing` turns false. |
| UploadExample.NoCompletionAfterFailedTick | examples/dataset_client_example.py:33-37 | On a script whose first tick has a failed job and whose second tick has only successes, polling cannot end with the upload completed: the failed job is raised in the iteration that saw it, before `complete_upload`. |
| UploadExample.PollAndComplete | examples/dataset_client_example.py:30-37 | The log is one status request per tick and then, if polling settled, the completion. The poller is `update` folded over the ticks read, and every tick before the last one kept polling going without a failed job. The result is raised exactly for a failed status request, a failed job or a failed completion. A settled run ends after a tick with nothing processing and nothing failed. |
| UploadExample.RunWithWrapper | examples/dataset_client_example.py:21-37 | After the creation and the uploads, the first upload failure is raised before any polling. Otherwise polling and completion behave as in `PollAndComplete`. Every request after the first is about the wrapper. |
| UploadExample.CreateDatasetAndUploadManyFiles | examples/dataset_client_example.py:9-37 | The first request creates the wrapper, and a failure there ends the run. No files is a `ValueError`, from a pool of zero workers. Otherwise every file is attempted in order, the requests are logged in order, and the run ends as described for `RunWithWrapper`. |
| UploadExample.SettledLogLength | examples/dataset_client_example.py:31-37 | A log that ends with the completion holds one status request per tick before it. |
| UploadExample.ValidUploadsSucceed | examples/dataset_client_example.py:21-28 | When all files are valid and the service accepts every upload, nothing is raised and one request is sent per file. |
| UploadExample.TwoTicksComplete | examples/dataset_client_example.py:31-37 | A processing tick, then a settled tick, then an accepted completion: polling ends after two ticks and the upload completes. |
| UploadExample.FailedTickRaises | examples/dataset_client_example.py:31-34 | A tick with a failed job raises `IOError` naming that job, after one tick, without completing. |
| UploadExample.TwoUploadsScenario | examples/dataset_client_example.py:9-37 | The driver, on the script of the upload test (two accepted uploads, a processing tick, then a settled one), completes after six requests: create, two uploads, two status requests, complete. |

## Left out

- HTTP: sessions, retries, headers and URLs are not modelled. Each request's answer is a
  `Result` given as a parameter: a transport failure or a `raise_for_status` error is its
  `Err`. For the schema fetch in `Deployment.__init__`, that `Err` also stands for a
  missing `components` or `schemas` key.
- The thread pool: uploads run one after another in submission order. The error
  re-raised is the first failure in submission order. The real `as_completed` order
  depends on timing and is not modelled.
- `time.sleep` and `print` are not modelled. The polling loop stops when the scripted
  status answers run out (`StillPolling`), because the model has no clock.
- Floating-point numbers, numpy arrays, PIL images and base64 are opaque. Their
  serialisers are `Library` parameters, and the round trips hold under `Lawful`.
- Encode.ArrayRoundTrip: states that the shape survives, not the elements, because the
  encoder casts to `float32`.
- Encode.ImageRoundTrip: states that the format survives up to case, not the pixels,
  because of the mode conversion and lossy formats.
- `Path` is modelled on `/`-separated strings. Normalisation, `Path.exists` on
  directories and non-ASCII `lower()` are left out.
- `copy.deepcopy` in `feature_specs_in`/`feature_specs_out` has no counterpart, since the
  specs are immutable values.
- `FeatureSpec.__repr__` has no counterpart.
- Reading the file's bytes in `upload_file` is not modelled. Only the request that
  names the file and its content type is.
- Validation happens per file, inside `upload_file`, after `create_wrapper`. It does not
  happen for all files before any network call.
- A `PENDING` status is not treated as processing. As in the code, `Status['PENDING']`
  raises `KeyError`.
- The pool size is `min(10, n)` as in the code. There is no `max_workers` argument.
- Tests that call methods the core does not have are not modelled: `upload_files`,
  `num_threads`, `url` normalisation, and the text and image shape warnings.

=== FILE: data_models.dfy ===
/** The declared contract of one named slot of a prediction row. */
module DataModels {

  /** A feature's name, its declared type (a dtype name such as `numeric`, `categorical`,
      `text`, `numpy` or `image`) and its declared shape. Immutable, so the defensive
      copies the client makes when handing specs out are the same value. */
  datatype FeatureSpec = FeatureSpec(name: string, dtype: string, shape: seq<nat>)
}

=== FILE: data_url.dfy ===
/** The data-URL framing the binary encoders use on the wire: `data:<media>;base64,<payload>`
    as in section 3 of RFC 2397, with the payload in the base64 alphabet of section 4 of
    RFC 4648, and the lenient three-cut parser the decoder applies to it. */
module DataUrl {
  import opened Results
  import opened Strings

  /** The pieces the decoder cuts a data URL into: `<scheme>:<media>;<params>,<payload>`. */
  datatype Parts = Parts(scheme: string, media: string, params: string, payload: string)

  /** The text the encoder emits for a payload already in base64. */
  function Frame(media: string, payload: string): string {
    "data:" + media + ";base64," + payload
  }

  /** Cuts at the first `,` (header from payload), then the header at its first `:`
      (scheme from media description), then the media description at its first `;`.
      `None` where any of the three cuts finds no separator. */
  function Parse(s: string): (r: Option<Parts>)
    ensures r.Some? ==>
      s == r.value.scheme + ":" + r.value.media + ";" + r.value.params + "," + r.value.payload
    ensures r.Some? ==>
      && ':' !in r.value.scheme
      && ';' !in r.value.media
      && ',' !in r.value.scheme + ":" + r.value.media + ";" + r.value.params
    ensures ',' !in s ==> r.None?
  {
    match SplitOnce(s, ',')
    case None => None
    case Some((header, payload)) =>
      match SplitOnce(header, ':')
      case None => None
      case Some((scheme, description)) =>
        match SplitOnce(description, ';')
        case None => None
        case Some((media, params)) =>
          assert header == scheme + ":" + media + ";" + params;
          Some(Parts(scheme, media, params, payload))
  }

  /** Every string of the form `<scheme>:<media>;<params>,<payload>` whose pieces keep
      the separators where the parser looks for them is parsed into exactly those
      pieces. Together with the ensures of `Parse` this says that `Parse` succeeds
      exactly on such strings and that the split is unique. The scheme and the
      parameters are not checked, so `x:image/png;y,AAAA` parses too. */
  lemma {:induction false} ParseFindsParts(scheme: string, media: string, params: string, payload: string)
    requires ':' !in scheme
    requires ';' !in media
    requires ',' !in scheme + ":" + media + ";" + params
    ensures Parse(scheme + ":" + media + ";" + params + "," + payload)
            == Some(Parts(scheme, media, params, payload))
  {
    var header := scheme + ":" + media + ";" + params;
    var description := media + ";" + params;
    assert scheme + ":" + media + ";" + params + "," + payload == header + [','] + payload;
    SplitOnceAt(header, ',', payload);
    assert header == scheme + [':'] + description;
    SplitOnceAt(scheme, ':', description);
    assert description == media + [';'] + params;
    SplitOnceAt(media, ';', params);
  }

  /** Framing then parsing recovers the media type and the payload whenever the media
      type contains no `,` and no `;`; a `:` in the media type is harmless. */
  lemma ParseFrame(media: string, payload: string)
    requires ',' !in media && ';' !in media
    ensures Parse(Frame(media, payload)) == Some(Parts("data", media, "base64", payload))
  {
    assert Frame(media, payload) == "data" + ":" + media + ";" + "base64" + "," + payload;
    ParseFindsParts("data", media, "base64", payload);
  }

  /** A header without `:` is not a data URL, whatever follows the first `,`. */
  lemma {:induction false} ParseRejectsHeaderWithoutScheme(header: string, payload: string)
    requires ',' !in header && ':' !in header
    ensures Parse(header + "," + payload) == None
  {
    SplitOnceAt(header, ',', payload);
  }

  /** Nor is one whose media description has no `;`. */
  lemma {:induction false} ParseRejectsMediaWithoutParams(scheme: string, description: string, payload: string)
    requires ':' !in scheme && ';' !in description
    requires ',' !in scheme + ":" + description
    ensures Parse(scheme + ":" + description + "," + payload) == None
  {
    var header := scheme + ":" + description;
    assert header + [','] + payload == scheme + ":" + description + "," + payload;
    SplitOnceAt(header, ',', payload);
    assert header == scheme + [':'] + description;
    SplitOnceAt(scheme, ':', description);
  }
}

=== FILE: dataset_client.dfy ===
/** The dataset upload client: job statuses and their wire dictionaries, the local
    validation of a file before it is uploaded, and the interpretation of each endpoint's
    response. The HTTP session itself is a parameter: a response arrives as a `Result`. */
module DatasetClient {
  import opened Errors
  import opened Results

  /** `Status`: the state of one server-side upload job. */
  datatype Status = Processing | Success | Failed

  /** The enum member's name, as `to_dict` writes it. */
  function StatusName(s: Status): (name: string)
    ensures StatusNamed(name) == Ok(s)
  {
    match s
    case Processing => "PROCESSING"
    case Success => "SUCCESS"
    case Failed => "FAILED"
  }

  /** `Status[name]`: only the three member names are known; any other name, such as
      `PENDING`, raises KeyError. */
  function StatusNamed(name: string): (r: Result<Status, Error>)
    ensures r.Ok? <==> name == "PROCESSING" || name == "SUCCESS" || name == "FAILED"
    ensures r.Err? ==> r.error == UnknownStatus(name) && KindOf(r.error) == KeyError
  {
    if name == "PROCESSING" then Ok(Processing)
    else if name == "SUCCESS" then Ok(Success)
    else if name == "FAILED" then Ok(Failed)
    else Err(UnknownStatus(name))
  }

  /** Naming a status and looking the name up are inverse on the known names. */
  lemma StatusNamesAreExact(name: string)
    requires StatusNamed(name).Ok?
    ensures StatusName(StatusNamed(name).value) == name
  {
  }

  /** `UploadJob`: a server-assigned id and the job's status. */
  datatype UploadJob = UploadJob(id: string, status: Status)

  /** A job as it travels: a JSON object of strings. */
  type JobDict = map<string, string>

  /** `UploadJob.to_dict`. */
  function ToDict(job: UploadJob): (d: JobDict)
    ensures d.Keys == {"uploadId", "status"}
    ensures d["uploadId"] == job.id && StatusNamed(d["status"]) == Ok(job.status)
  {
    map["uploadId" := job.id, "status" := StatusName(job.status)]
  }

  /** `UploadJob.from_dict`: `uploadId` is looked up before `status`, and the status must be
      a known name. Keys other than these two are ignored. */
  function FromDict(d: JobDict): (r: Result<UploadJob, Error>)
    ensures r.Ok? <==> "uploadId" in d && "status" in d && StatusNamed(d["status"]).Ok?
    ensures r.Ok? ==> r.value.id == d["uploadId"] && StatusName(r.value.status) == d["status"]
    ensures "uploadId" !in d ==> r == Err(MissingKey("uploadId"))
    ensures "uploadId" in d && "status" !in d ==> r == Err(MissingKey("status"))
    ensures r.Err? ==> KindOf(r.error) == KeyError
  {
    if "uploadId" !in d then Err(MissingKey("uploadId"))
    else if "status" !in d then Err(MissingKey("status"))
    else
      var status :- StatusNamed(d["status"]);
      Ok(UploadJob(d["uploadId"], status))
  }

  /** A job survives the trip through its dictionary. */
  lemma JobRoundTrip(job: UploadJob)
    ensures FromDict(ToDict(job)) == Ok(job)
  {
  }

  /** A dictionary holding just the two keys, read as a job and written back, is unchanged. */
  lemma DictRoundTrip(d: JobDict)
    requires d.Keys == {"uploadId", "status"}
    requires FromDict(d).Ok?
    ensures ToDict(FromDict(d).value) == d
  {
    var e := ToDict(FromDict(d).value);
    assert e.Keys == d.Keys;
    assert e["uploadId"] == d["uploadId"];
    StatusNamesAreExact(d["status"]);
    assert e["status"] == d["status"];
  }

  /** `DatasetClient.FILE_EXTENSIONS`: the suffixes the service accepts, and the content
      type each is uploaded with. */
  const FileExtensions: map<string, string> :=
    map[".csv" := "text/csv", ".zip" := "application/zip", ".npy" := "application/npy"]

  /** The index of the last `c` in `s`, as `str.rfind` finds it. */
  function LastIndexOf(s: string, c: char): (r: Option<nat>)
    ensures r.None? <==> c !in s
    ensures r.Some? ==> r.value < |s| && s[r.value] == c && c !in s[r.value + 1..]
  {
    if |s| == 0 then None
    else if s[|s| - 1] == c then Some(|s| - 1)
    else
      var r := LastIndexOf(s[..|s| - 1], c);
      assert s == s[..|s| - 1] + [s[|s| - 1]];
      r
  }

  /** `PurePath.name`: the text after the last `/`. */
  function FileName(path: string): (name: string)
    ensures '/' !in name
    ensures |name| <= |path| && name == path[|path| - |name|..]
    ensures |name| < |path| ==> path[|path| - |name| - 1] == '/'
  {
    match LastIndexOf(path, '/')
    case None => path
    case Some(i) => path[i + 1..]
  }

  /** `PurePath.suffix`: from the last `.` of the file name, provided that dot neither starts
      nor ends the name; otherwise empty. It is a tail of the path: empty, or a dot followed
      by at least one character with no other dot and no separator. */
  function Suffix(path: string): (suffix: string)
    ensures suffix != [] ==> && |suffix| >= 2 && suffix[0] == '.'
                             && '.' !in suffix[1..] && '/' !in suffix
    ensures suffix != [] <==> exists i :: SuffixDotAt(FileName(path), i)
  {
    var name := FileName(path);
    var suffix := NameSuffix(name);
    TailOfTail(path, name, suffix);
    suffix
  }

  /** The suffix is a tail of the path. */
  lemma SuffixEndsPath(path: string)
    ensures |Suffix(path)| <= |path| && Suffix(path) == path[|path| - |Suffix(path)|..]
  {
    TailOfTail(path, FileName(path), NameSuffix(FileName(path)));
  }

  /** `name[i]` is the last dot of the name, and it neither starts nor ends the name. */
  predicate SuffixDotAt(name: string, i: int) {
    0 < i < |name| - 1 && name[i] == '.' && '.' !in name[i + 1..]
  }

  /** A name has at most one last dot. */
  lemma LastDotIsUnique(name: string, i: nat, j: nat)
    requires i < |name| && name[i] == '.' && '.' !in name[i + 1..]
    requires j < |name| && name[j] == '.' && '.' !in name[j + 1..]
    ensures i == j
  {
  }

  /** The suffix of a file name: the tail from its last dot when that dot neither starts
      nor ends the name, and empty when there is no such dot. */
  function NameSuffix(name: string): (suffix: string)
    ensures |suffix| <= |name| && suffix == name[|name| - |suffix|..]
    ensures suffix != [] ==> |suffix| >= 2 && suffix[0] == '.' && '.' !in suffix[1..]
    ensures suffix != [] ==> |suffix| < |name| && SuffixDotAt(name, |name| - |suffix|)
    ensures suffix != [] <==> exists i :: SuffixDotAt(name, i)
  {
    match LastIndexOf(name, '.')
    case Some(i) =>
      if 0 < i < |name| - 1 then
        assert name[i..][1..] == name[i + 1..];
        assert SuffixDotAt(name, i);
        name[i..]
      else
        assert forall k | SuffixDotAt(name, k) :: k == i by {
          forall k | SuffixDotAt(name, k) {
            LastDotIsUnique(name, k, i);
          }
        }
        []
    case None => []
  }

  /** A tail of the file name is a tail of the path, with no separator in it. */
  lemma TailOfTail(path: string, name: string, suffix: string)
    requires '/' !in name && |name| <= |path| && name == path[|path| - |name|..]
    requires |suffix| <= |name| && suffix == name[|name| - |suffix|..]
    ensures suffix == path[|path| - |suffix|..] && '/' !in suffix
  {
    assert forall k :: 0 <= k < |suffix| ==> suffix[k] == name[|name| - |suffix| + k];
  }

  /** A path that ends in `stem.ext`, with a non-empty stem and extension, has suffix `.ext`. */
  lemma SuffixOfNamedFile(dir: string, stem: string, ext: string)
    requires stem != [] && ext != []
    requires '/' !in stem && '/' !in ext && '.' !in ext
    ensures Suffix(dir + "/" + stem + "." + ext) == "." + ext
  {
    var tail := "." + ext;
    var name := stem + tail;
    var path := (dir + "/") + name;
    assert dir + "/" + stem + "." + ext == path;
    assert name[|stem|..] == tail;
    assert name == stem + ['.'] + ext;
    NoSlashIn(stem, ext);
    FileNameOf(dir + "/", name);
    LastIndexAt(stem, '.', ext);
  }

  /** A file name that starts with its only dot has no suffix, as for `.csv`. */
  lemma HiddenFileHasNoSuffix(dir: string, ext: string)
    requires '/' !in ext && '.' !in ext
    ensures Suffix(dir + "/." + ext) == ""
  {
    var name := "." + ext;
    assert dir + "/." + ext == (dir + "/") + name;
    FileNameOf(dir + "/", name);
    LastIndexAt([], '.', ext);
    assert [] + "." + ext == name;
  }

  lemma NoSlashIn(stem: string, ext: string)
    requires '/' !in stem && '/' !in ext
    ensures '/' !in stem + ("." + ext)
  {
  }

  lemma FileNameOf(dir: string, name: string)
    requires |dir| > 0 && dir[|dir| - 1] == '/' && '/' !in name
    ensures FileName(dir + name) == name
  {
    var stem := dir[..|dir| - 1];
    assert stem + "/" == dir;
    LastIndexAt(stem, '/', name);
  }

  lemma {:induction false} LastIndexAt(before: string, c: char, after: string)
    requires c !in after
    ensures LastIndexOf(before + [c] + after, c) == Some(|before|)
    decreases |after|
  {
    var s := before + [c] + after;
    if |after| > 0 {
      var n := |after| - 1;
      assert s[..|s| - 1] == before + [c] + after[..n];
      assert s[|s| - 1] == after[n];
      assert c !in after[..n] by {
        assert forall k :: 0 <= k < n ==> after[..n][k] == after[k];
      }
      LastIndexAt(before, c, after[..n]);
    }
  }

  /** The content type the table gives a suffix, if it lists it. */
  function ContentType(suffix: string): Option<string> {
    if suffix in FileExtensions then Some(FileExtensions[suffix]) else None
  }

  /** The validation `upload_file` does before it reads the file: the path must exist,
      which is checked first, and its suffix must be in the table, which gives the content
      type. */
  function ValidateFile(isFile: string -> bool, path: string): (r: Result<string, Error>)
    ensures r.Ok? <==> isFile(path) && ContentType(Suffix(path)).Some?
    ensures r.Ok? ==> r.value == ContentType(Suffix(path)).value
    ensures !isFile(path) ==> r == Err(FileNotFound(path))
    ensures isFile(path) && ContentType(Suffix(path)).None? ==> r == Err(UnsupportedExtension(Suffix(path)))
  {
    if !isFile(path) then Err(FileNotFound(path))
    else match ContentType(Suffix(path))
      case None => Err(UnsupportedExtension(Suffix(path)))
      case Some(t) => Ok(t)
  }

  /** A missing `a.csv` is reported as missing, before its suffix is looked at. */
  lemma MissingFileExample(isFile: string -> bool)
    requires !isFile("data/a.csv")
    ensures ValidateFile(isFile, "data/a.csv") == Err(FileNotFound("data/a.csv"))
  {
  }

  lemma JpegSuffix()
    ensures Suffix("data/b.jpeg") == ".jpeg"
  {
    assert "data" + "/" + "b" + "." + "jpeg" == "data/b.jpeg";
    assert "." + "jpeg" == ".jpeg";
    SuffixOfNamedFile("data", "b", "jpeg");
  }

  lemma NpySuffix()
    ensures Suffix("data/c.npy") == ".npy"
  {
    assert "data" + "/" + "c" + "." + "npy" == "data/c.npy";
    assert "." + "npy" == ".npy";
    SuffixOfNamedFile("data", "c", "npy");
  }

  /** An existing `b.jpeg` is reported as having an unsupported suffix. */
  lemma UnsupportedFileExample(isFile: string -> bool)
    requires isFile("data/b.jpeg")
    ensures ValidateFile(isFile, "data/b.jpeg") == Err(UnsupportedExtension(".jpeg"))
  {
    JpegSuffix();
    JpegUnsupported();
  }

  lemma JpegUnsupported()
    ensures ContentType(".jpeg").None?
  {
    assert ".jpeg" !in FileExtensions;
  }

  /** An existing `c.npy` is uploaded as `application/npy`. */
  lemma NpyFileExample(isFile: string -> bool)
    requires isFile("data/c.npy")
    ensures ValidateFile(isFile, "data/c.npy") == Ok("application/npy")
  {
    NpySuffix();
  }

  /** The requests the client sends, with what identifies each. */
  datatype Call =
    | CreateWrapperCall(name: string, description: string)
    | UploadCall(wrapperId: string, path: string, contentType: string)
    | StatusCall(statusWrapperId: string)
    | CompleteCall(completeWrapperId: string)

  /** A JSON object body of string fields, after `raise_for_status`: an `Err` is the
      transport's or the server's failure. */
  type Body = Result<map<string, string>, Error>

  /** `response.json()[key]`. */
  function Field(body: Body, key: string): (r: Result<string, Error>)
    ensures r.Ok? <==> body.Ok? && key in body.value
    ensures r.Ok? ==> r.value == body.value[key]
    ensures body.Err? ==> r == Err(body.error)
    ensures body.Ok? && key !in body.value ==> r == Err(MissingKey(key))
  {
    var fields :- body;
    if key in fields then Ok(fields[key]) else Err(MissingKey(key))
  }

  /** `create_wrapper`'s result: the `datasetWrapperId` of the response. */
  function WrapperId(body: Body): (r: Result<string, Error>)
    ensures r.Ok? <==> body.Ok? && "datasetWrapperId" in body.value
    ensures r.Ok? ==> r.value == body.value["datasetWrapperId"]
    ensures body.Err? ==> r == Err(body.error)
    ensures body.Ok? && r.Err? ==> r.error == MissingKey("datasetWrapperId") && KindOf(r.error) == KeyError
  {
    Field(body, "datasetWrapperId")
  }

  /** `upload_file` up to the request: the validated file, sent to the wrapper's upload
      endpoint with the suffix's content type. */
  function UploadRequest(isFile: string -> bool, path: string, wrapperId: string): (r: Result<Call, Error>)
    ensures r.Ok? <==> ValidateFile(isFile, path).Ok?
    ensures r.Ok? ==> r.value == UploadCall(wrapperId, path, ValidateFile(isFile, path).value)
    ensures r.Err? ==> r.error == ValidateFile(isFile, path).error
  {
    var contentType :- ValidateFile(isFile, path);
    Ok(UploadCall(wrapperId, path, contentType))
  }

  /** `upload_file`'s result: the `uploadId` of the response. */
  function UploadId(body: Body): (r: Result<string, Error>)
    ensures r.Ok? <==> body.Ok? && "uploadId" in body.value
    ensures r.Ok? ==> r.value == body.value["uploadId"]
    ensures body.Err? ==> r == Err(body.error)
    ensures body.Ok? && r.Err? ==> r.error == MissingKey("uploadId") && KindOf(r.error) == KeyError
  {
    Field(body, "uploadId")
  }

  /** `get_status`'s result: the `uploadStatuses` list of the response, each entry read by
      `from_dict`. `None` stands for a body without that key. */
  function GetStatus(body: Result<Option<seq<JobDict>>, Error>): (r: Result<seq<UploadJob>, Error>)
    ensures body.Err? ==> r == Err(body.error)
    ensures body == Ok(None) ==> r == Err(MissingKey("uploadStatuses"))
    ensures body.Ok? && body.value.Some? ==>
              (r.Ok? <==> forall i :: 0 <= i < |body.value.value| ==> FromDict(body.value.value[i]).Ok?)
    ensures r.Ok? ==> body.Ok? && body.value.Some? && |r.value| == |body.value.value|
                      && forall i :: 0 <= i < |r.value| ==> FromDict(body.value.value[i]) == Ok(r.value[i])
  {
    var listed :- body;
    if listed.None? then Err(MissingKey("uploadStatuses"))
    else MapAll(FromDict, listed.value)
  }

  /** The jobs a server reports come back from `get_status` unchanged. */
  lemma GetStatusRoundTrip(jobs: seq<UploadJob>)
    ensures GetStatus(Ok(Some(seq(|jobs|, i requires 0 <= i < |jobs| => ToDict(jobs[i]))))) == Ok(jobs)
  {
    var dicts := seq(|jobs|, i requires 0 <= i < |jobs| => ToDict(jobs[i]));
    forall i | 0 <= i < |jobs|
      ensures FromDict(dicts[i]) == Ok(jobs[i])
    {
      JobRoundTrip(jobs[i]);
    }
    var r := GetStatus(Ok(Some(dicts)));
    assert r.Ok?;
    assert forall i :: 0 <= i < |jobs| ==> FromDict(dicts[i]) == Ok(r.value[i]);
    assert r.value == jobs;
  }
}

=== FILE: deployment.dfy ===
/** The prediction request/response translator: items to a `{'rows': [...]}` request,
    a response back to items, feature specs from the served schema, and the batching
    that drives many items through the service. */
module Deployment {
  import opened Values
  import opened Errors
  import opened Results
  import opened DataModels
  import opened Encode

  /** A mapping from feature name to value: an input item, an output item, or a wire row. */
  type Item = map<string, Value>

  /** The body of a prediction request: `{'rows': rows}`. */
  datatype Request = Request(rows: seq<Item>)

  /** The parts of a prediction response the client looks at: the `errorCode` and
      `errorMessage` keys, and the `rows` key. */
  datatype Response = Response(errorCode: Option<string>, errorMessage: Option<string>, rows: Option<seq<Item>>)

  function Names(specs: seq<FeatureSpec>): set<string> {
    set j | 0 <= j < |specs| :: specs[j].name
  }

  /** No later spec has the same name as `specs[j]`, so `specs[j]` writes the row's entry
      for that name last. */
  predicate LastOfName(specs: seq<FeatureSpec>, j: int)
    requires 0 <= j < |specs|
  {
    forall k :: j < k < |specs| ==> specs[k].name != specs[j].name
  }

  predicate DistinctNames(specs: seq<FeatureSpec>) {
    forall j, k :: 0 <= j < k < |specs| ==> specs[j].name != specs[k].name
  }

  /** The dictionary a loop builds by writing `vals[j]` under `specs[j].name`, in order. */
  function RowOf(specs: seq<FeatureSpec>, vals: seq<Value>): (row: Item)
    requires |specs| == |vals|
    ensures row.Keys == Names(specs)
    ensures forall j :: 0 <= j < |specs| && LastOfName(specs, j) ==> row[specs[j].name] == vals[j]
  {
    if |specs| == 0 then map[]
    else
      var n := |specs| - 1;
      var earlier := RowOf(specs[..n], vals[..n]);
      assert forall j :: 0 <= j < n ==> specs[..n][j] == specs[j] && vals[..n][j] == vals[j];
      RowOfStep(specs, vals, earlier);
      earlier[specs[n].name := vals[n]]
  }

  /** The names of the specs are those of all but the last, and the last one's. */
  lemma NamesSnoc(specs: seq<FeatureSpec>)
    requires |specs| > 0
    ensures Names(specs) == Names(specs[..|specs| - 1]) + {specs[|specs| - 1].name}
  {
    var n := |specs| - 1;
    var front := specs[..n];
    forall x | x in Names(specs) ensures x in Names(front) + {specs[n].name} {
      var j :| 0 <= j < |specs| && specs[j].name == x;
      if j < n {
        assert front[j].name == x;
      }
    }
    forall x | x in Names(front) ensures x in Names(specs) {
      var j :| 0 <= j < n && front[j].name == x;
      assert specs[j].name == x;
    }
  }

  /** One more write keeps `RowOf`'s contract. */
  lemma RowOfStep(specs: seq<FeatureSpec>, vals: seq<Value>, earlier: Item)
    requires |specs| == |vals| > 0
    requires earlier.Keys == Names(specs[..|specs| - 1])
    requires forall j :: 0 <= j < |specs| - 1 && LastOfName(specs[..|specs| - 1], j) ==>
               earlier[specs[j].name] == vals[j]
    ensures var row := earlier[specs[|specs| - 1].name := vals[|specs| - 1]];
            && row.Keys == Names(specs)
            && forall j :: 0 <= j < |specs| && LastOfName(specs, j) ==> row[specs[j].name] == vals[j]
  {
    var n := |specs| - 1;
    var front := specs[..n];
    var row := earlier[specs[n].name := vals[n]];
    NamesSnoc(specs);
    forall j | 0 <= j < |specs| && LastOfName(specs, j)
      ensures row[specs[j].name] == vals[j]
    {
      if j < n {
        assert specs[n].name != specs[j].name;
        assert LastOfName(front, j);
      }
    }
  }

  /** One feature of one request row: the item's value under the spec's name, encoded. */
  function EncodeField(lib: Library, item: Item, spec: FeatureSpec): (r: Result<Value, Error>)
    ensures spec.name !in item ==> r == Err(MissingFeature(spec.name)) && KindOf(r.error) == ValueError
    ensures spec.name in item ==> r == EncodeFeature(lib, item[spec.name], spec)
  {
    if spec.name !in item then Err(MissingFeature(spec.name)) else EncodeFeature(lib, item[spec.name], spec)
  }

  /** One request row: every input spec's feature encoded, in spec order, stopping at the
      first that fails. Keys of the item that no spec names are dropped. */
  function EncodeRow(lib: Library, item: Item, specs: seq<FeatureSpec>): (r: Result<Item, Error>)
    ensures r.Ok? <==> forall j :: 0 <= j < |specs| ==> EncodeField(lib, item, specs[j]).Ok?
    ensures r.Ok? ==> r.value.Keys == Names(specs)
    ensures r.Ok? ==> forall j :: 0 <= j < |specs| && LastOfName(specs, j) ==>
                        EncodeField(lib, item, specs[j]) == Ok(r.value[specs[j].name])
    ensures r.Err? ==> exists j :: 0 <= j < |specs| && EncodeField(lib, item, specs[j]) == Err(r.error)
                                   && forall k :: 0 <= k < j ==> EncodeField(lib, item, specs[k]).Ok?
  {
    var vals :- MapAll((spec: FeatureSpec) => EncodeField(lib, item, spec), specs);
    Ok(RowOf(specs, vals))
  }

  /** `prediction_request`. */
  function PredictionRequest(lib: Library, items: seq<Item>, specs: seq<FeatureSpec>): (r: Result<Request, Error>)
    ensures r.Ok? <==> forall i :: 0 <= i < |items| ==> EncodeRow(lib, items[i], specs).Ok?
    ensures r.Ok? ==> |r.value.rows| == |items|
    ensures r.Ok? ==> forall i :: 0 <= i < |items| ==> EncodeRow(lib, items[i], specs) == Ok(r.value.rows[i])
    ensures r.Ok? ==> forall i :: 0 <= i < |items| ==> r.value.rows[i].Keys == Names(specs)
    ensures r.Err? ==> exists i :: 0 <= i < |items| && EncodeRow(lib, items[i], specs) == Err(r.error)
                                   && forall k :: 0 <= k < i ==> EncodeRow(lib, items[k], specs).Ok?
  {
    var rows :- MapAll((item: Item) => EncodeRow(lib, item, specs), items);
    Ok(Request(rows))
  }

  /** One feature of one response row: the row's value under the spec's name, decoded. */
  function DecodeField(lib: Library, row: Item, spec: FeatureSpec): (r: Result<Value, Error>)
    ensures spec.name !in row ==> r == Err(MissingFeature(spec.name)) && KindOf(r.error) == ValueError
    ensures spec.name in row ==> r == DecodeFeature(lib, row[spec.name], spec)
  {
    if spec.name !in row then Err(MissingFeature(spec.name)) else DecodeFeature(lib, row[spec.name], spec)
  }

  /** One output item: every output spec's feature decoded, in spec order. */
  function DecodeRow(lib: Library, row: Item, specs: seq<FeatureSpec>): (r: Result<Item, Error>)
    ensures r.Ok? <==> forall j :: 0 <= j < |specs| ==> DecodeField(lib, row, specs[j]).Ok?
    ensures r.Ok? ==> r.value.Keys == Names(specs)
    ensures r.Ok? ==> forall j :: 0 <= j < |specs| && LastOfName(specs, j) ==>
                        DecodeField(lib, row, specs[j]) == Ok(r.value[specs[j].name])
    ensures r.Err? ==> exists j :: 0 <= j < |specs| && DecodeField(lib, row, specs[j]) == Err(r.error)
                                   && forall k :: 0 <= k < j ==> DecodeField(lib, row, specs[k]).Ok?
  {
    var vals :- MapAll((spec: FeatureSpec) => DecodeField(lib, row, spec), specs);
    Ok(RowOf(specs, vals))
  }

  /** `parse_prediction`, a generator: `done` holds the items yielded before it raised. A
      server error is raised before `rows` is looked at; then a missing `rows`; then the
      rows are decoded in order and the first row that fails ends the generator. */
  function ParsePrediction(lib: Library, response: Response, specs: seq<FeatureSpec>): (p: Partial<Item, Error>)
    ensures response.errorCode.Some? ==>
      p == Partial([], Some(ServerError(response.errorCode.value, response.errorMessage.GetOr(""))))
    ensures response.errorCode.None? && response.rows.None? ==> p == Partial([], Some(NoRows))
    ensures response.errorCode.None? && response.rows.Some? ==>
      var rows := response.rows.value;
      && |p.done| <= |rows|
      && (forall i :: 0 <= i < |p.done| ==> DecodeRow(lib, rows[i], specs) == Ok(p.done[i]))
      && (forall i :: 0 <= i < |p.done| ==> p.done[i].Keys == Names(specs))
      && (p.failure.None? ==> |p.done| == |rows|)
      && (p.failure.Some? ==> |p.done| < |rows| && DecodeRow(lib, rows[|p.done|], specs) == Err(p.failure.value))
  {
    if response.errorCode.Some? then
      Partial([], Some(ServerError(response.errorCode.value, response.errorMessage.GetOr(""))))
    else if response.rows.None? then
      Partial([], Some(NoRows))
    else
      MapPrefix((row: Item) => DecodeRow(lib, row, specs), response.rows.value)
  }

  /** A request that lacks a feature in its first item fails naming that feature, once the
      features before it have encoded. */
  lemma MissingFeatureIsNamed(lib: Library, item: Item, specs: seq<FeatureSpec>, j: nat)
    requires j < |specs| && specs[j].name !in item
    requires forall k :: 0 <= k < j ==> EncodeField(lib, item, specs[k]).Ok?
    ensures PredictionRequest(lib, [item], specs) == Err(MissingFeature(specs[j].name))
    ensures KindOf(PredictionRequest(lib, [item], specs).error) == ValueError
  {
    RowNamesMissingFeature(lib, item, specs, j);
    assert [item][0] == item;
  }

  /** The row of an item lacking a feature fails naming the first feature it lacks. */
  lemma RowNamesMissingFeature(lib: Library, item: Item, specs: seq<FeatureSpec>, j: nat)
    requires j < |specs| && specs[j].name !in item
    requires forall k :: 0 <= k < j ==> EncodeField(lib, item, specs[k]).Ok?
    ensures EncodeRow(lib, item, specs) == Err(MissingFeature(specs[j].name))
  {
    var r := EncodeRow(lib, item, specs);
    assert EncodeField(lib, item, specs[j]).Err?;
    var j' :| 0 <= j' < |specs| && EncodeField(lib, item, specs[j']) == Err(r.error)
              && forall k :: 0 <= k < j' ==> EncodeField(lib, item, specs[k]).Ok?;
    if j' != j {
      assert false;
    }
  }

  /** Any item lacking any input feature makes the whole request fail: no partial
      request is ever built. */
  lemma MissingFeatureFailsRequest(lib: Library, items: seq<Item>, specs: seq<FeatureSpec>, i: nat, j: nat)
    requires i < |items| && j < |specs| && specs[j].name !in items[i]
    ensures PredictionRequest(lib, items, specs).Err?
  {
    assert EncodeField(lib, items[i], specs[j]).Err?;
  }

  /** `BATCH_SIZE`. */
  const BatchSize: nat := 128

  function Flatten<T>(bs: seq<seq<T>>): seq<T> {
    if |bs| == 0 then [] else bs[0] + Flatten(bs[1..])
  }

  /** The batches `predict_lazy` cuts its input into, one `islice` at a time: as many
      items as are left, up to `n`; an empty slice ends the loop. */
  function Batches<T>(xs: seq<T>, n: nat): (bs: seq<seq<T>>)
    requires n > 0
    ensures forall k :: 0 <= k < |bs| ==> 0 < |bs[k]| <= n
    ensures forall k :: 0 <= k < |bs| - 1 ==> |bs[k]| == n
    decreases |xs|
  {
    if |xs| == 0 then []
    else
      var take := if |xs| < n then |xs| else n;
      [xs[..take]] + Batches(xs[take..], n)
  }

  /** The batches put back together are the input. */
  lemma {:induction false} BatchesFlatten<T>(xs: seq<T>, n: nat)
    requires n > 0
    ensures Flatten(Batches(xs, n)) == xs
    decreases |xs|
  {
    if |xs| > 0 {
      var take := if |xs| < n then |xs| else n;
      var bs := Batches(xs, n);
      assert bs[1..] == Batches(xs[take..], n);
      BatchesFlatten(xs[take..], n);
      assert xs == xs[..take] + xs[take..];
    }
  }

  /** There are `ceil(|xs| / BATCH_SIZE)` batches. */
  lemma {:induction false} BatchesCount<T>(xs: seq<T>)
    ensures |Batches(xs, BatchSize)| == (|xs| + BatchSize - 1) / BatchSize
    decreases |xs|
  {
    if |xs| > BatchSize {
      BatchesCount(xs[BatchSize..]);
    }
  }

  /** Cutting a concatenation whose first part fills whole batches cuts each part on its own. */
  lemma {:induction false} BatchesAppend<T>(xs: seq<T>, ys: seq<T>)
    requires |xs| % BatchSize == 0
    ensures Batches(xs + ys, BatchSize) == Batches(xs, BatchSize) + Batches(ys, BatchSize)
    decreases |xs|
  {
    if |xs| == 0 {
      assert xs + ys == ys;
    } else {
      assert (xs + ys)[..BatchSize] == xs[..BatchSize];
      assert (xs + ys)[BatchSize..] == xs[BatchSize..] + ys;
      BatchesAppend(xs[BatchSize..], ys);
    }
  }

  /** `session.post` of a request followed by `raise_for_status` and `response.json()`:
      the service, as a parameter. */
  type Transport = Request -> Result<Response, Error>

  /** What a run of `predict_lazy` has done: the items yielded, the error it raised if it
      did, and the requests it sent, in order. */
  datatype Run = Run(outputs: seq<Item>, failure: Option<Error>, sent: seq<Request>)

  /** Runs `a` and, if it did not raise, `b` after it. */
  function Then(a: Run, b: Run): Run {
    if a.failure.Some? then a else Run(a.outputs + b.outputs, b.failure, a.sent + b.sent)
  }

  /** One pass of the loop of `predict_lazy`: encode the batch, post it, yield the parsed
      items. Encoding a batch fails before it is sent; a request that is sent is the
      batch's prediction request. */
  function BatchStep(lib: Library, post: Transport, batch: seq<Item>,
                     specsIn: seq<FeatureSpec>, specsOut: seq<FeatureSpec>): (step: Run)
    ensures |step.sent| <= 1
    ensures |step.sent| == 1 <==> PredictionRequest(lib, batch, specsIn).Ok?
    ensures |step.sent| == 1 ==> PredictionRequest(lib, batch, specsIn) == Ok(step.sent[0])
    ensures step.failure.None? ==> |step.sent| == 1
    ensures PredictionRequest(lib, batch, specsIn).Err? ==>
              step.outputs == [] && step.failure == Some(PredictionRequest(lib, batch, specsIn).error)
    ensures |step.sent| == 1 && post(step.sent[0]).Err? ==>
              step.outputs == [] && step.failure == Some(post(step.sent[0]).error)
    ensures |step.sent| == 1 && post(step.sent[0]).Ok? ==>
              && step.outputs == ParsePrediction(lib, post(step.sent[0]).value, specsOut).done
              && step.failure == ParsePrediction(lib, post(step.sent[0]).value, specsOut).failure
  {
    match PredictionRequest(lib, batch, specsIn)
    case Err(e) => Run([], Some(e), [])
    case Ok(request) =>
      match post(request)
      case Err(e) => Run([], Some(e), [request])
      case Ok(response) =>
        var parsed := ParsePrediction(lib, response, specsOut);
        Run(parsed.done, parsed.failure, [request])
  }

  /** The loop of `predict_lazy` over its batches, one `BatchStep` each, stopping at the
      first that raises. */
  function PredictBatches(lib: Library, post: Transport, batches: seq<seq<Item>>,
                          specsIn: seq<FeatureSpec>, specsOut: seq<FeatureSpec>): (run: Run)
    ensures |run.sent| <= |batches|
    ensures Matches(RequestFor(lib, specsIn), batches, run.sent)
    ensures run.failure.None? ==> |run.sent| == |batches|
    decreases |batches|
  {
    if |batches| == 0 then Run([], None, [])
    else
      var step := BatchStep(lib, post, batches[0], specsIn, specsOut);
      var rest := PredictBatches(lib, post, batches[1..], specsIn, specsOut);
      assert step.failure.None? ==> (step.sent + rest.sent)[1..] == rest.sent;
      Then(step, rest)
  }

  /** `prediction_request` for the input specs, as a function of the batch. */
  function RequestFor(lib: Library, specsIn: seq<FeatureSpec>): seq<Item> -> Result<Request, Error> {
    (batch: seq<Item>) => PredictionRequest(lib, batch, specsIn)
  }

  lemma ThenIsAssociative(a: Run, b: Run, c: Run)
    ensures Then(Then(a, b), c) == Then(a, Then(b, c))
  {
    if a.failure.None? && b.failure.None? {
      assert (a.outputs + b.outputs) + c.outputs == a.outputs + (b.outputs + c.outputs);
      assert (a.sent + b.sent) + c.sent == a.sent + (b.sent + c.sent);
    }
  }

  /** Running two lists of batches one after the other is running their concatenation:
      outputs are concatenated in batch order. */
  lemma {:induction false} PredictBatchesAppend(lib: Library, post: Transport, b1: seq<seq<Item>>, b2: seq<seq<Item>>,
                                                specsIn: seq<FeatureSpec>, specsOut: seq<FeatureSpec>)
    ensures PredictBatches(lib, post, b1 + b2, specsIn, specsOut)
            == Then(PredictBatches(lib, post, b1, specsIn, specsOut), PredictBatches(lib, post, b2, specsIn, specsOut))
    decreases |b1|
  {
    var second := PredictBatches(lib, post, b2, specsIn, specsOut);
    if |b1| == 0 {
      assert b1 + b2 == b2;
      assert [] + second.outputs == second.outputs && [] + second.sent == second.sent;
    } else {
      DropFirstOfAppend(b1, b2);
      PredictBatchesAppend(lib, post, b1[1..], b2, specsIn, specsOut);
      ThenIsAssociative(BatchStep(lib, post, b1[0], specsIn, specsOut),
                        PredictBatches(lib, post, b1[1..], specsIn, specsOut), second);
    }
  }

  lemma DropFirstOfAppend<T>(xs: seq<T>, ys: seq<T>)
    requires |xs| > 0
    ensures (xs + ys)[0] == xs[0] && (xs + ys)[1..] == xs[1..] + ys
  {
  }

  /** `predict_lazy`: batches of at most `BATCH_SIZE` items, one request each. */
  function PredictLazy(lib: Library, post: Transport, items: seq<Item>,
                       specsIn: seq<FeatureSpec>, specsOut: seq<FeatureSpec>): (run: Run)
    ensures forall k :: 0 <= k < |run.sent| ==> 0 < |run.sent[k].rows| <= BatchSize
    ensures |run.sent| <= |Batches(items, BatchSize)|
    ensures forall k :: 0 <= k < |run.sent| ==>
              PredictionRequest(lib, Batches(items, BatchSize)[k], specsIn) == Ok(run.sent[k])
    ensures run.failure.None? ==> |run.sent| == (|items| + BatchSize - 1) / BatchSize
  {
    var batches := Batches(items, BatchSize);
    BatchesCount(items);
    MatchesAt(RequestFor(lib, specsIn), batches, PredictBatches(lib, post, batches, specsIn, specsOut).sent);
    PredictBatches(lib, post, batches, specsIn, specsOut)
  }

  /** Predicting on items whose first part fills whole batches yields the first part's
      outputs followed by the second part's, and sends the first part's requests first. */
  lemma PredictLazyAppend(lib: Library, post: Transport, xs: seq<Item>, ys: seq<Item>,
                          specsIn: seq<FeatureSpec>, specsOut: seq<FeatureSpec>)
    requires |xs| % BatchSize == 0
    ensures PredictLazy(lib, post, xs + ys, specsIn, specsOut)
            == Then(PredictLazy(lib, post, xs, specsIn, specsOut), PredictLazy(lib, post, ys, specsIn, specsOut))
  {
    BatchesAppend(xs, ys);
    PredictBatchesAppend(lib, post, Batches(xs, BatchSize), Batches(ys, BatchSize), specsIn, specsOut);
  }

  /** The pass of the loop over each batch, run on its own. */
  function Passes(lib: Library, post: Transport, batches: seq<seq<Item>>,
                  specsIn: seq<FeatureSpec>, specsOut: seq<FeatureSpec>): (steps: seq<Run>)
    ensures |steps| == |batches|
    ensures forall i :: 0 <= i < |batches| ==> steps[i] == BatchStep(lib, post, batches[i], specsIn, specsOut)
  {
    seq(|batches|, i requires 0 <= i < |batches| => BatchStep(lib, post, batches[i], specsIn, specsOut))
  }

  /** Passes run one after another, stopping at the first that raises. */
  function Chain(steps: seq<Run>): Run
    decreases |steps|
  {
    if |steps| == 0 then Run([], None, []) else Then(steps[0], Chain(steps[1..]))
  }

  /** The index of the first pass that raises, or the number of passes when none does. */
  function FirstFailure(steps: seq<Run>): (k: nat)
    ensures k <= |steps|
    ensures forall j :: 0 <= j < k ==> steps[j].failure.None?
    ensures k < |steps| ==> steps[k].failure.Some?
    decreases |steps|
  {
    if |steps| == 0 || steps[0].failure.Some? then 0
    else
      var k := FirstFailure(steps[1..]);
      assert forall j :: 0 < j <= k ==> steps[j] == steps[1..][j - 1];
      1 + k
  }

  /** The items the first `k` passes yield, pass after pass. */
  function Yielded(steps: seq<Run>, k: nat): seq<Item>
    requires k <= |steps|
    decreases k
  {
    if k == 0 then [] else steps[0].outputs + Yielded(steps[1..], k - 1)
  }

  lemma AppendAssocItems(a: seq<Item>, b: seq<Item>, c: seq<Item>)
    ensures a + b + c == a + (b + c)
  {
  }

  /** A chain of passes raises exactly when one of them raises, and then raises the first
      such pass's error. What it yields is every earlier pass's items, in order, followed
      by what the failing pass yielded before it raised. */
  lemma {:induction false} ChainYields(steps: seq<Run>)
    ensures var run := Chain(steps);
            var k := FirstFailure(steps);
            && (run.failure.None? <==> k == |steps|)
            && (k == |steps| ==> run.outputs == Yielded(steps, k))
            && (k < |steps| ==> run.failure == steps[k].failure
                                && run.outputs == Yielded(steps, k) + steps[k].outputs)
    decreases |steps|
  {
    if |steps| > 0 {
      if steps[0].failure.Some? {
        assert [] + steps[0].outputs == steps[0].outputs;
      } else {
        var rest := steps[1..];
        ChainYields(rest);
        var k := FirstFailure(rest);
        if k < |rest| {
          assert steps[1 + k] == rest[k];
          AppendAssocItems(steps[0].outputs, Yielded(rest, k), rest[k].outputs);
        }
      }
    }
  }

  /** The loop over the batches is the chain of the batches' passes. */
  lemma {:induction false} PredictBatchesChains(lib: Library, post: Transport, batches: seq<seq<Item>>,
                                                specsIn: seq<FeatureSpec>, specsOut: seq<FeatureSpec>)
    ensures PredictBatches(lib, post, batches, specsIn, specsOut) == Chain(Passes(lib, post, batches, specsIn, specsOut))
    decreases |batches|
  {
    if |batches| > 0 {
      var steps := Passes(lib, post, batches, specsIn, specsOut);
      PredictBatchesChains(lib, post, batches[1..], specsIn, specsOut);
      assert steps[1..] == Passes(lib, post, batches[1..], specsIn, specsOut);
    }
  }

  /** `predict_lazy` over its batches: it raises exactly when the pass over some batch
      raises, with the first such error, and yields every batch's items in batch order up
      to that point. */
  lemma PredictLazyYields(lib: Library, post: Transport, items: seq<Item>,
                          specsIn: seq<FeatureSpec>, specsOut: seq<FeatureSpec>)
    ensures var run := PredictLazy(lib, post, items, specsIn, specsOut);
            var steps := Passes(lib, post, Batches(items, BatchSize), specsIn, specsOut);
            var k := FirstFailure(steps);
            && (run.failure.None? <==> k == |steps|)
            && (k == |steps| ==> run.outputs == Yielded(steps, k))
            && (k < |steps| ==> run.failure == steps[k].failure
                                && run.outputs == Yielded(steps, k) + steps[k].outputs)
  {
    var steps := Passes(lib, post, Batches(items, BatchSize), specsIn, specsOut);
    PredictBatchesChains(lib, post, Batches(items, BatchSize), specsIn, specsOut);
    ChainYields(steps);
  }

  /** Items that fit in one batch make one pass of the loop. */
  lemma PredictLazyOneBatch(lib: Library, post: Transport, items: seq<Item>,
                            specsIn: seq<FeatureSpec>, specsOut: seq<FeatureSpec>)
    requires 0 < |items| <= BatchSize
    ensures PredictLazy(lib, post, items, specsIn, specsOut) == BatchStep(lib, post, items, specsIn, specsOut)
  {
    var batches := Batches(items, BatchSize);
    assert items[..|items|] == items && items[|items|..] == [];
    assert Batches(items[|items|..], BatchSize) == [];
    assert batches == [items[..|items|]] + Batches(items[|items|..], BatchSize);
    var step := BatchStep(lib, post, items, specsIn, specsOut);
    assert batches[0] == items && batches[1..] == [];
    assert PredictBatches(lib, post, batches[1..], specsIn, specsOut) == Run([], None, []);
    assert step.outputs + [] == step.outputs && step.sent + [] == step.sent;
  }

  /** `predict_many`: every item `predict_lazy` yields, or the error it raised. */
  function PredictMany(lib: Library, post: Transport, items: seq<Item>,
                       specsIn: seq<FeatureSpec>, specsOut: seq<FeatureSpec>): (r: Result<seq<Item>, Error>)
    ensures var steps := Passes(lib, post, Batches(items, BatchSize), specsIn, specsOut);
            var k := FirstFailure(steps);
            && (r.Ok? <==> k == |steps|)
            && (r.Ok? ==> r.value == Yielded(steps, |steps|))
            && (r.Err? ==> k < |steps| && steps[k].failure == Some(r.error))
  {
    PredictLazyYields(lib, post, items, specsIn, specsOut);
    var run := PredictLazy(lib, post, items, specsIn, specsOut);
    if run.failure.Some? then Err(run.failure.value) else Ok(run.outputs)
  }

  /** What `predict` returns for a response: the server's error, the missing rows, an
      empty list of rows (whose `[0]` raises), or the first row decoded, provided every row
      decodes (the whole list is read before its first element is taken). */
  predicate PredictsFrom(lib: Library, response: Response, specsOut: seq<FeatureSpec>, r: Result<Item, Error>) {
    && (response.errorCode.Some? ==> r == Err(ServerError(response.errorCode.value, response.errorMessage.GetOr(""))))
    && (response.errorCode.None? && response.rows.None? ==> r == Err(NoRows))
    && (response.errorCode.None? && response.rows == Some([]) ==> r == Err(NoPrediction))
    && (response.errorCode.None? && response.rows.Some? && |response.rows.value| > 0 ==>
          var rows := response.rows.value;
          && (r.Ok? <==> forall i :: 0 <= i < |rows| ==> DecodeRow(lib, rows[i], specsOut).Ok?)
          && (r.Ok? ==> DecodeRow(lib, rows[0], specsOut) == r)
          && (r.Err? ==> exists i :: 0 <= i < |rows| && DecodeRow(lib, rows[i], specsOut) == Err(r.error)
                                    && forall j :: 0 <= j < i ==> DecodeRow(lib, rows[j], specsOut).Ok?))
  }

  /** The one-item run `predict` makes: its request, or the error building it; the
      transport's error; or what it reads from the response. */
  predicate PredictsFor(lib: Library, post: Transport, item: Item, specsIn: seq<FeatureSpec>,
                        specsOut: seq<FeatureSpec>, r: Result<Item, Error>) {
    match PredictionRequest(lib, [item], specsIn)
    case Err(e) => r == Err(e)
    case Ok(request) =>
      match post(request)
      case Err(e) => r == Err(e)
      case Ok(response) => PredictsFrom(lib, response, specsOut, r)
  }

  /** `predict(**item)`: the first item `predict_many([item])` returns. */
  function Predict(lib: Library, post: Transport, item: Item,
                   specsIn: seq<FeatureSpec>, specsOut: seq<FeatureSpec>): (r: Result<Item, Error>)
    ensures PredictsFor(lib, post, item, specsIn, specsOut, r)
  {
    PredictLazyOneBatch(lib, post, [item], specsIn, specsOut);
    PredictStep(lib, post, item, specsIn, specsOut);
    var outputs :- PredictMany(lib, post, [item], specsIn, specsOut);
    if |outputs| == 0 then Err(NoPrediction) else Ok(outputs[0])
  }

  /** What one item's pass yields and raises, read off the response. */
  lemma PredictStep(lib: Library, post: Transport, item: Item, specsIn: seq<FeatureSpec>, specsOut: seq<FeatureSpec>)
    ensures var step := BatchStep(lib, post, [item], specsIn, specsOut);
            var r := if step.failure.Some? then Err(step.failure.value)
                     else if |step.outputs| == 0 then Err(NoPrediction) else Ok(step.outputs[0]);
            PredictsFor(lib, post, item, specsIn, specsOut, r)
  {
    match PredictionRequest(lib, [item], specsIn)
    case Err(e) =>
    case Ok(request) =>
      match post(request)
      case Err(e) =>
      case Ok(response) => FirstRow(lib, response, specsOut);
  }

  /** The first item parsed from a response, or the error parsing it or taking it raises. */
  lemma FirstRow(lib: Library, response: Response, specsOut: seq<FeatureSpec>)
    ensures var p := ParsePrediction(lib, response, specsOut);
            var r := if p.failure.Some? then Err(p.failure.value)
                     else if |p.done| == 0 then Err(NoPrediction) else Ok(p.done[0]);
            PredictsFrom(lib, response, specsOut, r)
  {
    var p := ParsePrediction(lib, response, specsOut);
    if response.errorCode.None? && response.rows.Some? && |response.rows.value| > 0 {
      var rows := response.rows.value;
      if p.failure.Some? {
        assert DecodeRow(lib, rows[|p.done|], specsOut) == Err(p.failure.value);
      }
    }
  }


  /** The `x-peltarion` extension of a schema property: its `type` and `shape` keys. */
  datatype Peltarion = Peltarion(dtype: Option<string>, shape: Option<seq<nat>>)

  /** The `extensions` object of a schema property: its `x-peltarion` key. */
  datatype Extensions = Extensions(peltarion: Option<Peltarion>)

  /** A schema property: its `extensions` key. `None` stands for a missing key, at every
      level. */
  datatype Property = Property(extensions: Option<Extensions>)

  /** A property carrying everything a feature spec needs. */
  predicate Complete(property: Property) {
    && property.extensions.Some?
    && property.extensions.value.peltarion.Some?
    && property.extensions.value.peltarion.value.dtype.Some?
    && property.extensions.value.peltarion.value.shape.Some?
  }

  /** One element of `get_feature_specs`'s list: `specs['extensions']['x-peltarion']` is
      looked up for the type first and then for the shape, so the first key missing on that
      path is the one raised. */
  function SpecOf(name: string, property: Property): (r: Result<FeatureSpec, Error>)
    ensures r.Ok? <==> Complete(property)
    ensures r.Ok? ==> && r.value.name == name
                      && r.value.dtype == property.extensions.value.peltarion.value.dtype.value
                      && r.value.shape == property.extensions.value.peltarion.value.shape.value
    ensures property.extensions.None? ==> r == Err(MissingKey("extensions"))
    ensures property.extensions.Some? && property.extensions.value.peltarion.None? ==>
              r == Err(MissingKey("x-peltarion"))
    ensures property.extensions.Some? && property.extensions.value.peltarion.Some?
              && property.extensions.value.peltarion.value.dtype.None? ==>
              r == Err(MissingKey("type"))
    ensures property.extensions.Some? && property.extensions.value.peltarion.Some?
              && property.extensions.value.peltarion.value.dtype.Some?
              && property.extensions.value.peltarion.value.shape.None? ==>
              r == Err(MissingKey("shape"))
    ensures r.Err? ==> KindOf(r.error) == KeyError
  {
    match property.extensions
    case None => Err(MissingKey("extensions"))
    case Some(extensions) =>
      match extensions.peltarion
      case None => Err(MissingKey("x-peltarion"))
      case Some(peltarion) =>
        if peltarion.dtype.None? then Err(MissingKey("type"))
        else if peltarion.shape.None? then Err(MissingKey("shape"))
        else Ok(FeatureSpec(name, peltarion.dtype.value, peltarion.shape.value))
  }

  /** `get_feature_specs`: one spec per schema property, in the schema's order. */
  function GetFeatureSpecs(properties: seq<(string, Property)>): (r: Result<seq<FeatureSpec>, Error>)
    ensures r.Ok? <==> forall i :: 0 <= i < |properties| ==> Complete(properties[i].1)
    ensures r.Ok? ==> |r.value| == |properties|
    ensures r.Ok? ==> forall i :: 0 <= i < |properties| ==>
              && r.value[i].name == properties[i].0
              && r.value[i].dtype == properties[i].1.extensions.value.peltarion.value.dtype.value
              && r.value[i].shape == properties[i].1.extensions.value.peltarion.value.shape.value
    ensures r.Err? ==> exists i :: && 0 <= i < |properties| && !Complete(properties[i].1)
                                   && SpecOf(properties[i].0, properties[i].1) == Err(r.error)
                                   && forall j :: 0 <= j < i ==> Complete(properties[j].1)
    ensures r.Err? ==> KindOf(r.error) == KeyError
  {
    MapAll((p: (string, Property)) => SpecOf(p.0, p.1), properties)
  }

  /** A schema whose property names are distinct, as the keys of a JSON object are, gives
      specs with distinct names, so every encoded row holds exactly one entry per spec. */
  lemma DistinctPropertiesGiveDistinctNames(properties: seq<(string, Property)>)
    requires forall i, j :: 0 <= i < j < |properties| ==> properties[i].0 != properties[j].0
    requires GetFeatureSpecs(properties).Ok?
    ensures DistinctNames(GetFeatureSpecs(properties).value)
  {
  }

  /** The `components.schemas` object of the served `openapi.json`: the properties of
      `input-row`, and those of `output-row-batch.properties.rows`. Where a key on the
      way to either is missing, `Err` names the first such key (`input-row`,
      `properties`, `output-row-batch` or `rows`). */
  datatype Schemas = Schemas(
    inputRow: Result<seq<(string, Property)>, string>,
    outputRows: Result<seq<(string, Property)>, string>)

  /** A connected `Deployment`: its input and output feature specs. */
  datatype Client = Client(specsIn: seq<FeatureSpec>, specsOut: seq<FeatureSpec>)

  /** `Deployment.__init__`: `fetched` is the GET of `openapi.json` down to
      `components.schemas`, failing with the transport's error, the status error of
      `raise_for_status` or the missing `components`/`schemas` key. Then the input specs
      are read, then the output specs. */
  function Connect(fetched: Result<Schemas, Error>): (r: Result<Client, Error>)
    ensures fetched.Err? ==> r == Err(fetched.error)
    ensures r.Ok? <==> && fetched.Ok?
                       && fetched.value.inputRow.Ok? && fetched.value.outputRows.Ok?
                       && GetFeatureSpecs(fetched.value.inputRow.value).Ok?
                       && GetFeatureSpecs(fetched.value.outputRows.value).Ok?
    ensures r.Ok? ==> r.value.specsIn == GetFeatureSpecs(fetched.value.inputRow.value).value
                      && r.value.specsOut == GetFeatureSpecs(fetched.value.outputRows.value).value
    ensures fetched.Ok? && fetched.value.inputRow.Err? ==>
              r == Err(MissingKey(fetched.value.inputRow.error))
    ensures fetched.Ok? && fetched.value.inputRow.Ok? && GetFeatureSpecs(fetched.value.inputRow.value).Err? ==>
              r == Err(GetFeatureSpecs(fetched.value.inputRow.value).error)
    ensures fetched.Ok? && fetched.value.inputRow.Ok? && GetFeatureSpecs(fetched.value.inputRow.value).Ok?
            && fetched.value.outputRows.Err? ==>
              r == Err(MissingKey(fetched.value.outputRows.error))
    ensures fetched.Ok? && fetched.value.inputRow.Ok? && GetFeatureSpecs(fetched.value.inputRow.value).Ok?
            && fetched.value.outputRows.Ok? && GetFeatureSpecs(fetched.value.outputRows.value).Err? ==>
              r == Err(GetFeatureSpecs(fetched.value.outputRows.value).error)
    ensures fetched.Ok? && r.Err? ==> KindOf(r.error) == KeyError
  {
    var schemas :- fetched;
    if schemas.inputRow.Err? then Err(MissingKey(schemas.inputRow.error))
    else
      var specsIn :- GetFeatureSpecs(schemas.inputRow.value);
      if schemas.outputRows.Err? then Err(MissingKey(schemas.outputRows.error))
      else
        var specsOut :- GetFeatureSpecs(schemas.outputRows.value);
        Ok(Client(specsIn, specsOut))
  }
}

=== FILE: encode.dfy ===
/** The feature codec layer: five stateless encoders, the registry that picks one from a
    declared `(dtype, shape)`, the per-encoder type and shape checks, the data-URL framing
    of the two binary encoders, and the fixed encode and decode pipelines. */
module Encode {
  import opened Values
  import opened Errors
  import opened Results
  import opened Strings
  import opened DataModels
  import DataUrl

  /** The foreign code the binary encoders call, passed in as parameters: numpy's float32
      cast followed by `np.save`, `np.load`, PIL's `save` into a named format, `Image.open`
      followed by `load`, PIL's pixel conversion between two modes, and base64. */
  datatype Library = Library(
    npySave: Value -> Result<Bytes, Error>,
    npyLoad: Bytes -> Result<Value, Error>,
    imageSave: (Value, string) -> Result<Bytes, Error>,
    imageOpen: Bytes -> Result<Value, Error>,
    convertPixels: (seq<nat>, string, string) -> seq<nat>,
    b64Encode: Bytes -> string,
    b64Decode: string -> Result<Bytes, Error>)

  /** Reloading what numpy saved gives back an array of the same shape (the elements may
      have been rounded to float32). */
  predicate ArrayReloads(lib: Library, a: Value) {
    a.NdArray? && lib.npySave(a).Ok? ==>
      var r := lib.npyLoad(lib.npySave(a).value);
      r.Ok? && r.value.NdArray? && r.value.shape == a.shape
  }

  /** Reopening what PIL saved in a format gives back an image whose format names the
      same format, up to case (`png` is saved as, and reopened as, `PNG`). */
  predicate ImageReloads(lib: Library, img: Value, format: string) {
    lib.imageSave(img, format).Ok? ==>
      var r := lib.imageOpen(lib.imageSave(img, format).value);
      r.Ok? && r.value.Image? && r.value.format.Some? && Lower(r.value.format.value) == Lower(format)
  }

  /** The facts about the foreign code that the codec round trip depends on. */
  ghost predicate Lawful(lib: Library) {
    && (forall b: Bytes :: lib.b64Decode(lib.b64Encode(b)) == Ok(b))
    && (forall a: Value :: ArrayReloads(lib, a))
    && (forall img: Value, format: string :: ImageReloads(lib, img, format))
  }

  datatype Encoder = NumericEncoder | CategoricalEncoder | TextEncoder | NumpyEncoder | ImageEncoder

  /** `expects()`: the native types an encoder accepts: one each, except that the numeric
      encoder takes both kinds of number. */
  function Expects(e: Encoder): (tags: set<Tag>)
    ensures |tags| == (if e.NumericEncoder? then 2 else 1)
    ensures IntTag in tags <==> FloatTag in tags
  {
    match e
    case NumericEncoder => {IntTag, FloatTag}
    case CategoricalEncoder => {DictTag}
    case TextEncoder => {StrTag}
    case NumpyEncoder => {NdArrayTag}
    case ImageEncoder => {ImageTag}
  }

  /** The encoders whose wire form is a data URL. */
  predicate IsBinary(e: Encoder) {
    e.NumpyEncoder? || e.ImageEncoder?
  }

  /** `ENCODERS`: the read-only registry, keyed by dtype name. */
  const Encoders: map<string, Encoder> := map[
    "numeric" := NumericEncoder,
    "categorical" := CategoricalEncoder,
    "numpy" := NumpyEncoder,
    "image" := ImageEncoder,
    "text" := TextEncoder]

  /** The registry's insertion order, in which `ENCODER_COMPATIBILITY` is assembled. */
  const RegistryOrder: seq<Encoder> :=
    [NumericEncoder, CategoricalEncoder, NumpyEncoder, ImageEncoder, TextEncoder]

  /** `dict` over the (type, encoder) pairs of `es` in order; a later pair for the same
      type would overwrite an earlier one. */
  function CompatibilityOf(es: seq<Encoder>): (m: map<Tag, Encoder>)
    ensures forall t :: t in m ==> t in Expects(m[t]) && m[t] in es
    ensures forall i, t :: 0 <= i < |es| && t in Expects(es[i]) ==> t in m
  {
    if |es| == 0 then map[]
    else
      var last := es[|es| - 1];
      var earlier := CompatibilityOf(es[..|es| - 1]);
      assert forall i :: 0 <= i < |es| - 1 ==> es[i] == es[..|es| - 1][i];
      earlier + map t | t in Expects(last) :: last
  }

  /** `ENCODER_COMPATIBILITY`: the encoder for each native type. */
  const Compatibility: map<Tag, Encoder> := CompatibilityOf(RegistryOrder)

  /** No native type is expected by two encoders. */
  lemma ExpectedTypesAreDisjoint()
    ensures forall e1: Encoder, e2: Encoder :: e1 != e2 ==> Expects(e1) !! Expects(e2)
  {
  }

  /** Every native type has a compatible encoder, and it is the one encoder that expects
      that type. */
  lemma CompatibilityIsTheExpectingEncoder()
    ensures forall t: Tag :: t in Compatibility
    ensures forall e: Encoder, t: Tag :: t in Expects(e) <==> Compatibility[t] == e
  {
    forall t: Tag
      ensures t in Compatibility
    {
      var i := match t
        case IntTag => 0
        case FloatTag => 0
        case DictTag => 1
        case NdArrayTag => 2
        case ImageTag => 3
        case StrTag => 4;
      assert t in Expects(RegistryOrder[i]);
    }
    ExpectedTypesAreDisjoint();
  }

  /** `FILE_EXTENSION_ENCODERS`: the encoder for a file extension. */
  const FileExtensionEncoders: map<string, Encoder> := map[
    "npy" := NumpyEncoder,
    "png" := ImageEncoder,
    "jpg" := ImageEncoder,
    "jpeg" := ImageEncoder]

  /** More than one scalar: the condition under which a numeric feature is redirected to
      the array encoder. `shape[0]` is only looked at when the shape has length one. */
  predicate ManyScalars(shape: seq<nat>)
    requires |shape| > 0
  {
    |shape| > 1 || shape[0] > 1
  }

  /** `get_encoder`. */
  function GetEncoder(dtype: string, shape: seq<nat>): (r: Result<Encoder, Error>)
    ensures r.Ok? <==> dtype in Encoders && !(dtype == "numeric" && |shape| == 0)
    ensures dtype !in Encoders ==> r == Err(UnknownDtype(dtype))
    ensures dtype == "numeric" && |shape| == 0 ==> r == Err(EmptyShape)
    ensures r.Ok? && dtype == "numeric" ==>
      r.value in {NumericEncoder, NumpyEncoder} && (r.value == NumpyEncoder <==> ManyScalars(shape))
    ensures r.Ok? && dtype != "numeric" ==> r.value == Encoders[dtype]
  {
    if dtype == "numeric" then
      if |shape| > 1 then Ok(NumpyEncoder)
      else if |shape| == 0 then Err(EmptyShape)
      else if shape[0] > 1 then Ok(NumpyEncoder)
      else Ok(Encoders[dtype])
    else if dtype in Encoders then Ok(Encoders[dtype])
    else Err(UnknownDtype(dtype))
  }

  /** `check_type`. */
  function CheckType(e: Encoder, v: Value): (r: Result<(), Error>)
    ensures r.Ok? <==> TagOf(v) in Expects(e)
    ensures r.Err? ==> r.error == WrongType(Expects(e), TagOf(v)) && KindOf(r.error) == TypeError
  {
    if TagOf(v) in Expects(e) then Ok(()) else Err(WrongType(Expects(e), TagOf(v)))
  }

  /** `check_shape`, which the pipelines only reach with a value of an expected type.
      Only the categorical and the array encoder ever reject. */
  function CheckShape(e: Encoder, v: Value, shape: seq<nat>): (r: Result<(), Error>)
    requires TagOf(v) in Expects(e)
    ensures e.CategoricalEncoder? ==> (r.Ok? <==> |shape| > 0 && |v.entries| == shape[0])
    ensures e.CategoricalEncoder? && |shape| == 0 ==> r == Err(EmptyShape)
    ensures e.NumpyEncoder? ==> (r.Ok? <==> v.shape == shape)
    ensures e.NumericEncoder? || e.TextEncoder? || e.ImageEncoder? ==> r.Ok?
    ensures r.Err? ==> KindOf(r.error) in {ValueError, IndexError}
  {
    match e
    case CategoricalEncoder =>
      if |shape| == 0 then Err(EmptyShape)
      else if |v.entries| != shape[0] then Err(WrongCategoryCount(shape[0], |v.entries|))
      else Ok(())
    case NumpyEncoder =>
      if v.shape != shape then Err(WrongShape(shape, v.shape)) else Ok(())
    case _ => Ok(())
  }

  /** `file_extension`: empty for the encoders that do not write files, `npy` for arrays,
      the lower-cased format for images. */
  function FileExtension(e: Encoder, v: Value): (r: Result<string, Error>)
    ensures !IsBinary(e) ==> r == Ok("")
    ensures e.NumpyEncoder? ==> r == Ok("npy")
    ensures e.ImageEncoder? ==> (r.Ok? <==> v.Image? && v.format.Some?)
    ensures e.ImageEncoder? && v.Image? && v.format.None? ==> r == Err(NoImageFormat)
    ensures e.ImageEncoder? && r.Ok? ==> r.value == Lower(v.format.value)
  {
    match e
    case NumpyEncoder => Ok("npy")
    case ImageEncoder =>
      if !v.Image? then Err(MissingAttribute("format"))
      else if v.format.None? then Err(NoImageFormat)
      else Ok(Lower(v.format.value))
    case _ => Ok("")
  }

  const NpyMediaType: string := "application/x.peltarion.npy"

  /** `media_type` of the binary encoders. */
  function MediaType(e: Encoder, v: Value): (r: Result<string, Error>)
    requires IsBinary(e)
    ensures e.NumpyEncoder? ==> r == Ok(NpyMediaType)
    ensures e.ImageEncoder? ==> (r.Ok? <==> v.Image? && v.format.Some?)
    ensures e.ImageEncoder? && r.Ok? ==> r.value == "image/" + Lower(v.format.value)
    ensures e.ImageEncoder? && v.Image? && v.format.None? ==> r == Err(NoImageFormat)
  {
    if e.NumpyEncoder? then Ok(NpyMediaType)
    else
      var extension :- FileExtension(e, v);
      Ok("image/" + extension)
  }

  /** The mode an image is converted to before saving: alpha is dropped. */
  function OpaqueMode(mode: string): (m: string)
    ensures mode == "RGBA" ==> m == "RGB"
    ensures mode == "LA" ==> m == "L"
    ensures mode != "RGBA" && mode != "LA" ==> m == mode
    ensures m != "RGBA" && m != "LA"
  {
    if mode == "RGBA" then "RGB" else if mode == "LA" then "L" else mode
  }

  /** `Image.convert(mode)`: a new image of that mode, carrying no format. */
  function Convert(lib: Library, img: Value, mode: string): (r: Value)
    requires img.Image?
    ensures r.Image? && r.mode == mode && r.format.None?
  {
    Image(None, mode, lib.convertPixels(img.pixels, img.mode, mode))
  }

  /** The image the image encoder hands to PIL's `save`. */
  function ImageToSave(lib: Library, img: Value): (r: Value)
    requires img.Image?
    ensures r.Image? && r.mode == OpaqueMode(img.mode)
    ensures r.mode != "RGBA" && r.mode != "LA"
    ensures img.mode != "RGBA" && img.mode != "LA" ==> r == img
  {
    if img.mode == "RGBA" || img.mode == "LA" then Convert(lib, img, OpaqueMode(img.mode)) else img
  }

  /** `encode` of the binary encoders: the bytes the payload is made of. The image is
      saved in its original format, which the conversion would otherwise lose. */
  function EncodeBytes(lib: Library, e: Encoder, v: Value): (r: Result<Bytes, Error>)
    requires IsBinary(e)
    requires e.ImageEncoder? ==> v.Image? && v.format.Some?
    ensures e.NumpyEncoder? ==> r == lib.npySave(v)
    ensures e.ImageEncoder? ==> r == lib.imageSave(ImageToSave(lib, v), v.format.value)
  {
    if e.NumpyEncoder? then lib.npySave(v) else lib.imageSave(ImageToSave(lib, v), v.format.value)
  }

  /** `decode` of the binary encoders. */
  function DecodeBytes(lib: Library, e: Encoder, data: Bytes): (r: Result<Value, Error>)
    requires IsBinary(e)
    ensures e.NumpyEncoder? ==> r == lib.npyLoad(data)
    ensures e.ImageEncoder? ==> r == lib.imageOpen(data)
  {
    if e.NumpyEncoder? then lib.npyLoad(data) else lib.imageOpen(data)
  }

  /** Bytes a binary encoder wrote read back as a value of the same kind: an array of the
      same shape, or an image whose format names the original one up to case, though the
      alpha channel may have been dropped on the way. */
  lemma BytesRoundTrip(lib: Library, e: Encoder, v: Value)
    requires Lawful(lib) && IsBinary(e) && TagOf(v) in Expects(e)
    requires e.ImageEncoder? ==> v.format.Some?
    requires EncodeBytes(lib, e, v).Ok?
    ensures var d := DecodeBytes(lib, e, EncodeBytes(lib, e, v).value);
            && d.Ok? && TagOf(d.value) == TagOf(v)
            && (e.NumpyEncoder? ==> d.value.shape == v.shape)
            && (e.ImageEncoder? ==> d.value.format.Some? && Lower(d.value.format.value) == Lower(v.format.value))
  {
    if e.NumpyEncoder? {
      assert ArrayReloads(lib, v);
    } else {
      assert ImageReloads(lib, ImageToSave(lib, v), v.format.value);
    }
  }

  /** `encode_json`: the value itself for the plain encoders, a data URL for the binary
      ones. The media type is computed before the payload, so an image without a format
      fails before anything is saved. */
  function EncodeJson(lib: Library, e: Encoder, v: Value): (r: Result<Value, Error>)
    ensures !IsBinary(e) ==> r == Ok(v)
    ensures IsBinary(e) && MediaType(e, v).Err? ==> r == Err(MediaType(e, v).error)
    ensures IsBinary(e) && r.Ok? ==>
      && MediaType(e, v).Ok?
      && EncodeBytes(lib, e, v).Ok?
      && r.value == Str(DataUrl.Frame(MediaType(e, v).value, lib.b64Encode(EncodeBytes(lib, e, v).value)))
  {
    if !IsBinary(e) then Ok(v)
    else
      var media :- MediaType(e, v);
      var data :- EncodeBytes(lib, e, v);
      Ok(Str(DataUrl.Frame(media, lib.b64Encode(data))))
  }

  /** `decode_json`: the wire value itself for the plain encoders. For the binary ones the
      wire value must be a string that parses as a data URL, whose payload decodes, and
      whose declared media type is the decoded value's. */
  function DecodeJson(lib: Library, e: Encoder, w: Value): (r: Result<Value, Error>)
    ensures !IsBinary(e) ==> r == Ok(w)
    ensures IsBinary(e) && !w.Str? && !w.Image? ==> r == Err(MissingAttribute("split")) && KindOf(r.error) == AttributeError
    ensures IsBinary(e) && w.Image? ==> r == Err(UnexpectedArgument("split")) && KindOf(r.error) == TypeError
    ensures IsBinary(e) && w.Str? && DataUrl.Parse(w.s).None? ==> r == Err(NotADataUrl)
    ensures IsBinary(e) && r.Ok? ==>
      && w.Str?
      && DataUrl.Parse(w.s).Some?
      && MediaType(e, r.value) == Ok(DataUrl.Parse(w.s).value.media)
    ensures IsBinary(e) && w.Str? && DataUrl.Parse(w.s).Some? ==>
      var parts := DataUrl.Parse(w.s).value;
      var data := lib.b64Decode(parts.payload);
      && (data.Err? ==> r == Err(data.error))
      && (data.Ok? && DecodeBytes(lib, e, data.value).Err? ==> r == Err(DecodeBytes(lib, e, data.value).error))
      && (r.Ok? ==> data.Ok? && r == DecodeBytes(lib, e, data.value))
      && (data.Ok? && DecodeBytes(lib, e, data.value).Ok? ==>
            var value := DecodeBytes(lib, e, data.value).value;
            && (MediaType(e, value) == Ok(parts.media) ==> r == Ok(value))
            && (MediaType(e, value).Err? ==> r == Err(MediaType(e, value).error))
            && (MediaType(e, value).Ok? && MediaType(e, value).value != parts.media ==>
                  r == Err(WrongMediaType(MediaType(e, value).value, parts.media))))
  {
    if !IsBinary(e) then Ok(w)
    else if w.Image? then Err(UnexpectedArgument("split"))
    else if !w.Str? then Err(MissingAttribute("split"))
    else match DataUrl.Parse(w.s)
      case None => Err(NotADataUrl)
      case Some(parts) =>
        var data :- lib.b64Decode(parts.payload);
        var value :- DecodeBytes(lib, e, data);
        var expected :- MediaType(e, value);
        if parts.media != expected then Err(WrongMediaType(expected, parts.media)) else Ok(value)
  }

  /** `encode_feature`: pick the encoder, check the type, check the shape, encode. */
  function EncodeFeature(lib: Library, v: Value, spec: FeatureSpec): (r: Result<Value, Error>)
    ensures GetEncoder(spec.dtype, spec.shape).Err? ==> r == Err(GetEncoder(spec.dtype, spec.shape).error)
    ensures GetEncoder(spec.dtype, spec.shape).Ok? ==>
      var e := GetEncoder(spec.dtype, spec.shape).value;
      && (TagOf(v) !in Expects(e) ==> r == Err(WrongType(Expects(e), TagOf(v))))
      && (TagOf(v) in Expects(e) && CheckShape(e, v, spec.shape).Err? ==>
            r == Err(CheckShape(e, v, spec.shape).error))
      && (TagOf(v) in Expects(e) && CheckShape(e, v, spec.shape).Ok? ==> r == EncodeJson(lib, e, v))
      && (r.Ok? ==> TagOf(v) in Expects(e) && CheckShape(e, v, spec.shape).Ok?
                    && r == EncodeJson(lib, e, v))
  {
    var e :- GetEncoder(spec.dtype, spec.shape);
    var _ :- CheckType(e, v);
    var _ :- CheckShape(e, v, spec.shape);
    EncodeJson(lib, e, v)
  }

  /** `decode_feature`: pick the encoder, decode, then check the type and the shape of
      the decoded value. */
  function DecodeFeature(lib: Library, w: Value, spec: FeatureSpec): (r: Result<Value, Error>)
    ensures GetEncoder(spec.dtype, spec.shape).Err? ==> r == Err(GetEncoder(spec.dtype, spec.shape).error)
    ensures GetEncoder(spec.dtype, spec.shape).Ok? ==>
      var e := GetEncoder(spec.dtype, spec.shape).value;
      && (DecodeJson(lib, e, w).Err? ==> r == Err(DecodeJson(lib, e, w).error))
      && (DecodeJson(lib, e, w).Ok? && TagOf(DecodeJson(lib, e, w).value) !in Expects(e) ==>
            r == Err(WrongType(Expects(e), TagOf(DecodeJson(lib, e, w).value))) && KindOf(r.error) == TypeError)
      && (DecodeJson(lib, e, w).Ok? && TagOf(DecodeJson(lib, e, w).value) in Expects(e)
          && CheckShape(e, DecodeJson(lib, e, w).value, spec.shape).Err? ==>
            r == Err(CheckShape(e, DecodeJson(lib, e, w).value, spec.shape).error))
      && (r.Ok? ==> DecodeJson(lib, e, w) == r && TagOf(r.value) in Expects(e)
                    && CheckShape(e, r.value, spec.shape).Ok?)
  {
    var e :- GetEncoder(spec.dtype, spec.shape);
    var decoded :- DecodeJson(lib, e, w);
    var _ :- CheckType(e, decoded);
    var _ :- CheckShape(e, decoded, spec.shape);
    Ok(decoded)
  }

  /** The selection examples: one scalar stays numeric, two or more scalars (in one or
      more dimensions) go to the array encoder, other dtypes are looked up as they are. */
  lemma GetEncoderExamples()
    ensures GetEncoder("numeric", [1]) == Ok(NumericEncoder)
    ensures GetEncoder("numeric", [2]) == Ok(NumpyEncoder)
    ensures GetEncoder("numeric", [2, 2]) == Ok(NumpyEncoder)
    ensures GetEncoder("numeric", [1, 1]) == Ok(NumpyEncoder)
    ensures GetEncoder("numeric", []) == Err(EmptyShape)
    ensures GetEncoder("image", []) == Ok(ImageEncoder)
    ensures GetEncoder("audio", [1]) == Err(UnknownDtype("audio"))
  {
  }

  /** A value passes an encoder's type check exactly when that encoder is the one
      `ENCODER_COMPATIBILITY` lists for the value's type. */
  lemma CheckTypeMatchesCompatibility(e: Encoder, v: Value)
    ensures CheckType(e, v).Ok? <==> TagOf(v) in Compatibility && Compatibility[TagOf(v)] == e
  {
    CompatibilityIsTheExpectingEncoder();
  }

  /** The shape-check examples: a two-entry mapping fits `(2,)` but not `(3,)`, and an
      array of shape `(100, 10, 3)` does not fit `(99, 10, 3)`. */
  lemma CheckShapeExamples()
    ensures CheckShape(CategoricalEncoder, Dict(map["a" := Int(1), "b" := Int(2)]), [2]) == Ok(())
    ensures CheckShape(CategoricalEncoder, Dict(map["a" := Int(1), "b" := Int(2)]), [3])
            == Err(WrongCategoryCount(3, 2))
    ensures CheckShape(NumpyEncoder, NdArray([100, 10, 3], []), [99, 10, 3])
            == Err(WrongShape([99, 10, 3], [100, 10, 3]))
    ensures CheckShape(TextEncoder, Str("string"), [2]) == Ok(())
  {
    assert |map["a" := Int(1), "b" := Int(2)]| == 2;
  }

  /** An image without a format has no file extension and no media type; a `PNG` image
      has extension `png` and media type `image/png`. */
  lemma ImageMediaTypeExamples()
    ensures FileExtension(ImageEncoder, Image(None, "RGB", [])) == Err(NoImageFormat)
    ensures MediaType(ImageEncoder, Image(None, "RGB", [])) == Err(NoImageFormat)
    ensures FileExtension(ImageEncoder, Image(Some("PNG"), "RGB", [])) == Ok("png")
    ensures MediaType(ImageEncoder, Image(Some("PNG"), "RGB", [])) == Ok("image/png")
  {
    assert Lower("PNG") == "png";
    assert "image/" + "png" == "image/png";
  }

  /** `FILE_EXTENSION_ENCODERS` agrees with `file_extension`: whenever an encoder names a
      value's extension and the table knows that extension, the table gives back that
      encoder. The table cannot tell an image whose format is called `NPY` from an array,
      so that one extension is excluded for images. */
  lemma FileExtensionTableAgrees(e: Encoder, v: Value)
    requires FileExtension(e, v).Ok? && FileExtension(e, v).value in FileExtensionEncoders
    requires e.ImageEncoder? ==> FileExtension(e, v).value != "npy"
    ensures FileExtensionEncoders[FileExtension(e, v).value] == e
  {
  }

  /** The media type of an image never contains `,` or `;` when its format does not, so
      it survives the data-URL framing. */
  lemma {:induction false} ImageMediaTypeIsFramable(img: Value)
    requires img.Image? && img.format.Some?
    requires ',' !in img.format.value && ';' !in img.format.value
    ensures ',' !in "image/" + Lower(img.format.value) && ';' !in "image/" + Lower(img.format.value)
  {
    LowerIsIdempotent(img.format.value);
  }

  lemma NpyMediaTypeIsFramable()
    ensures ',' !in NpyMediaType && ';' !in NpyMediaType
  {
    assert forall i :: 0 <= i < |NpyMediaType| ==> NpyMediaType[i] != ',' && NpyMediaType[i] != ';';
  }

  /** A well-formed data URL whose declared media type is not the media type of what its
      payload decodes to is rejected with the two media types. */
  lemma {:induction false} DecodeRejectsForeignMediaType(lib: Library, e: Encoder, media: string, data: Bytes)
    requires IsBinary(e)
    requires ',' !in media && ';' !in media
    requires lib.b64Decode(lib.b64Encode(data)) == Ok(data)
    requires DecodeBytes(lib, e, data).Ok?
    requires MediaType(e, DecodeBytes(lib, e, data).value).Ok?
    requires MediaType(e, DecodeBytes(lib, e, data).value).value != media
    ensures DecodeJson(lib, e, Str(DataUrl.Frame(media, lib.b64Encode(data))))
            == Err(WrongMediaType(MediaType(e, DecodeBytes(lib, e, data).value).value, media))
  {
    DataUrl.ParseFrame(media, lib.b64Encode(data));
  }

  /** The binary half of the round trip: the data URL the encoder emits is parsed back
      into its media type and payload, the payload decodes to the saved bytes, and the
      reloaded value carries the same media type. */
  lemma {:induction false} BinaryRoundTrip(lib: Library, e: Encoder, v: Value)
    requires Lawful(lib)
    requires IsBinary(e) && TagOf(v) in Expects(e)
    requires EncodeJson(lib, e, v).Ok?
    requires v.Image? && v.format.Some? ==> ',' !in v.format.value && ';' !in v.format.value
    ensures MediaType(e, v).Ok? && EncodeBytes(lib, e, v).Ok?
    ensures var value := DecodeBytes(lib, e, EncodeBytes(lib, e, v).value);
            && value.Ok?
            && DecodeJson(lib, e, EncodeJson(lib, e, v).value) == value
            && TagOf(value.value) == TagOf(v)
            && (e.NumpyEncoder? ==> v.NdArray? && value.value.NdArray? && value.value.shape == v.shape)
            && (e.ImageEncoder? ==> v.Image? && value.value.Image? && value.value.format.Some?
                                    && Lower(value.value.format.value) == Lower(v.format.value))
  {
    if e.NumpyEncoder? {
      ArrayRoundTrip(lib, v);
    } else {
      ImageRoundTrip(lib, v);
    }
  }

  lemma ArrayRoundTrip(lib: Library, v: Value)
    requires Lawful(lib)
    requires v.NdArray? && EncodeJson(lib, NumpyEncoder, v).Ok?
    ensures EncodeBytes(lib, NumpyEncoder, v).Ok?
    ensures var value := DecodeBytes(lib, NumpyEncoder, EncodeBytes(lib, NumpyEncoder, v).value);
            && value.Ok? && value.value.NdArray? && value.value.shape == v.shape
            && DecodeJson(lib, NumpyEncoder, EncodeJson(lib, NumpyEncoder, v).value) == value
  {
    var data := EncodeBytes(lib, NumpyEncoder, v).value;
    var payload := lib.b64Encode(data);
    NpyMediaTypeIsFramable();
    DataUrl.ParseFrame(NpyMediaType, payload);
    assert lib.b64Decode(payload) == Ok(data);
    assert ArrayReloads(lib, v);
  }

  lemma ImageRoundTrip(lib: Library, v: Value)
    requires Lawful(lib)
    requires v.Image? && EncodeJson(lib, ImageEncoder, v).Ok?
    requires v.format.Some? ==> ',' !in v.format.value && ';' !in v.format.value
    ensures v.format.Some? && EncodeBytes(lib, ImageEncoder, v).Ok?
    ensures var value := DecodeBytes(lib, ImageEncoder, EncodeBytes(lib, ImageEncoder, v).value);
            && value.Ok? && value.value.Image? && value.value.format.Some?
            && Lower(value.value.format.value) == Lower(v.format.value)
            && DecodeJson(lib, ImageEncoder, EncodeJson(lib, ImageEncoder, v).value) == value
  {
    var media := MediaType(ImageEncoder, v).value;
    var data := EncodeBytes(lib, ImageEncoder, v).value;
    var payload := lib.b64Encode(data);
    ImageMediaTypeIsFramable(v);
    DataUrl.ParseFrame(media, payload);
    assert lib.b64Decode(payload) == Ok(data);
    assert ImageReloads(lib, ImageToSave(lib, v), v.format.value);
  }

  /** Encoding a feature and decoding the wire value under the same spec succeeds. The
      plain encoders give back the value itself; the binary ones give back what the
      foreign decoder makes of the saved bytes: an array of the declared shape, or an
      image of the same format. The one assumption beyond the foreign code's own round
      trips is that an image format contains no `,` or `;`. */
  lemma {:induction false} FeatureRoundTrip(lib: Library, v: Value, spec: FeatureSpec)
    requires Lawful(lib)
    requires EncodeFeature(lib, v, spec).Ok?
    requires v.Image? && v.format.Some? ==> ',' !in v.format.value && ';' !in v.format.value
    ensures GetEncoder(spec.dtype, spec.shape).Ok?
    ensures var e := GetEncoder(spec.dtype, spec.shape).value;
            var d := DecodeFeature(lib, EncodeFeature(lib, v, spec).value, spec);
            && d.Ok?
            && TagOf(d.value) == TagOf(v)
            && (!IsBinary(e) ==> d.value == v)
            && (e.NumpyEncoder? ==> d.value.NdArray? && d.value.shape == spec.shape)
            && (e.ImageEncoder? ==> v.Image? && v.format.Some? && d.value.Image? && d.value.format.Some?
                                    && Lower(d.value.format.value) == Lower(v.format.value))
  {
    var e := GetEncoder(spec.dtype, spec.shape).value;
    if IsBinary(e) {
      BinaryFeatureRoundTrip(lib, v, spec);
    } else {
      PlainFeatureRoundTrip(lib, v, spec);
    }
  }

  /** The round trip through a plain encoder gives back the value itself. */
  lemma PlainFeatureRoundTrip(lib: Library, v: Value, spec: FeatureSpec)
    requires EncodeFeature(lib, v, spec).Ok?
    requires !IsBinary(GetEncoder(spec.dtype, spec.shape).value)
    ensures DecodeFeature(lib, EncodeFeature(lib, v, spec).value, spec) == Ok(v)
  {
    var e := GetEncoder(spec.dtype, spec.shape).value;
    assert TagOf(v) in Expects(e) && CheckShape(e, v, spec.shape).Ok?;
    DecodeFeatureAccepts(lib, v, spec, v);
  }

  /** The round trip through a binary encoder gives back what the foreign decoder makes
      of the saved bytes. */
  lemma BinaryFeatureRoundTrip(lib: Library, v: Value, spec: FeatureSpec)
    requires Lawful(lib)
    requires EncodeFeature(lib, v, spec).Ok?
    requires IsBinary(GetEncoder(spec.dtype, spec.shape).value)
    requires v.Image? && v.format.Some? ==> ',' !in v.format.value && ';' !in v.format.value
    ensures var e := GetEncoder(spec.dtype, spec.shape).value;
            var d := DecodeFeature(lib, EncodeFeature(lib, v, spec).value, spec);
            && EncodeBytes(lib, e, v).Ok?
            && d == DecodeBytes(lib, e, EncodeBytes(lib, e, v).value)
            && d.Ok?
            && TagOf(d.value) == TagOf(v)
            && (e.NumpyEncoder? ==> d.value.NdArray? && d.value.shape == spec.shape)
            && (e.ImageEncoder? ==> v.Image? && v.format.Some? && d.value.Image? && d.value.format.Some?
                                    && Lower(d.value.format.value) == Lower(v.format.value))
  {
    var e := GetEncoder(spec.dtype, spec.shape).value;
    var w := EncodeFeature(lib, v, spec).value;
    assert TagOf(v) in Expects(e) && CheckShape(e, v, spec.shape).Ok?;
    assert w == EncodeJson(lib, e, v).value;
    BinaryRoundTrip(lib, e, v);
    var d := DecodeBytes(lib, e, EncodeBytes(lib, e, v).value).value;
    DecodeFeatureAccepts(lib, w, spec, d);
  }

  /** Decoding a feature succeeds with whatever the encoder's `decode_json` gives, once
      that value passes the type and the shape check. */
  lemma DecodeFeatureAccepts(lib: Library, w: Value, spec: FeatureSpec, d: Value)
    requires GetEncoder(spec.dtype, spec.shape).Ok?
    requires var e := GetEncoder(spec.dtype, spec.shape).value;
      DecodeJson(lib, e, w) == Ok(d) && TagOf(d) in Expects(e) && CheckShape(e, d, spec.shape).Ok?
    ensures DecodeFeature(lib, w, spec) == Ok(d)
  {
  }
}

=== FILE: errors.dfy ===
/** The failures the client raises, one constructor per distinct cause, and the Python
    exception class each one surfaces as. */
module Errors {
  import opened Values

  datatype ExceptionKind =
    | TypeError | ValueError | KeyError | IndexError | AttributeError | IOError | FileNotFoundError

  datatype Error =
      /** `ENCODERS[dtype]` with a dtype that has no encoder. */
    | UnknownDtype(dtype: string)
      /** `shape[0]` on an empty shape tuple. */
    | EmptyShape
      /** `check_type`: the value's type is not one the encoder expects. */
    | WrongType(expectedTags: set<Tag>, receivedTag: Tag)
      /** Categorical `check_shape`: the mapping has the wrong number of categories. */
    | WrongCategoryCount(expectedCount: nat, receivedCount: nat)
      /** Array `check_shape`: the array's shape differs from the declared one. */
    | WrongShape(expectedShape: seq<nat>, receivedShape: seq<nat>)
      /** `file_extension` of an image whose format is `None`. */
    | NoImageFormat
      /** An attribute the value does not have (`.format` of a non-image, `.split` of a non-string). */
    | MissingAttribute(attribute: string)
      /** A method called with an argument it does not take: `Image.split()` takes none. */
    | UnexpectedArgument(methodName: string)
      /** A wire string that is not cut into header and payload by `,`, `:` and `;`. */
    | NotADataUrl
      /** The declared media type of a data URL differs from the decoded value's. */
    | WrongMediaType(expectedMedia: string, receivedMedia: string)
      /** A failure inside a foreign serialiser (base64, numpy, PIL), with the exception class
          the library raises (PIL's `UnidentifiedImageError` is an `OSError`, the class `IOError`
          names; base64's `binascii.Error` is a `ValueError`). */
    | LibraryFailure(reason: string, kind: ExceptionKind)
      /** A request item or a response row without a declared feature. */
    | MissingFeature(name: string)
      /** A prediction response carrying `errorCode`. */
    | ServerError(code: string, message: string)
      /** A prediction response without `rows`. */
    | NoRows
      /** `predict` on a response with no rows: `[0]` of an empty list. */
    | NoPrediction
      /** A dictionary lookup of a key that is absent. */
    | MissingKey(key: string)
      /** `Status[name]` with a name that is not a status. */
    | UnknownStatus(name: string)
      /** A local path that does not exist. */
    | FileNotFound(path: string)
      /** A local file whose suffix has no content type. */
    | UnsupportedExtension(suffix: string)
      /** A connection failure or an HTTP error status. */
    | Transport(reason: string)
      /** A worker pool asked for zero workers. */
    | NoWorkers
      /** Upload jobs the server reported as failed. */
    | FailedJobs(ids: seq<string>)

  function KindOf(e: Error): ExceptionKind {
    match e
    case UnknownDtype(_) => KeyError
    case EmptyShape => IndexError
    case WrongType(_, _) => TypeError
    case WrongCategoryCount(_, _) => ValueError
    case WrongShape(_, _) => ValueError
    case NoImageFormat => ValueError
    case MissingAttribute(_) => AttributeError
    case UnexpectedArgument(_) => TypeError
    case NotADataUrl => ValueError
    case WrongMediaType(_, _) => ValueError
    case LibraryFailure(_, kind) => kind
    case MissingFeature(_) => ValueError
    case ServerError(_, _) => IOError
    case NoRows => ValueError
    case NoPrediction => IndexError
    case MissingKey(_) => KeyError
    case UnknownStatus(_) => KeyError
    case FileNotFound(_) => FileNotFoundError
    case UnsupportedExtension(_) => ValueError
    case Transport(_) => IOError
    case NoWorkers => ValueError
    case FailedJobs(_) => IOError
  }
}

=== FILE: polling.dfy ===
/** `Polling`: the state a caller keeps while waiting for upload jobs to settle, and the
    step that folds one tick of job statuses into it. The status fetch is not part of the
    step: the tick's jobs are its argument. */
module Polling {
  import opened DatasetClient

  /** The ids of the jobs seen to succeed, in first-seen order; the ids of the jobs seen to
      fail, in order and with repeats; and whether the last tick still had work going on. */
  datatype Poller = Poller(successful: seq<string>, failed: seq<string>, ongoing: bool)

  /** `Polling.__init__`: nothing seen yet, and polling is to go on. */
  const Fresh: Poller := Poller([], [], true)

  predicate NoDuplicates(s: seq<string>) {
    forall i, j :: 0 <= i < j < |s| ==> s[i] != s[j]
  }

  function Elems(s: seq<string>): set<string> {
    set x | x in s
  }

  /** The ids of the failed jobs of a tick, in order. */
  function FailedIds(jobs: seq<UploadJob>): seq<string> {
    if |jobs| == 0 then []
    else (if jobs[0].status == Failed then [jobs[0].id] else []) + FailedIds(jobs[1..])
  }

  /** The ids of the successful jobs of a tick. */
  function SuccessIds(jobs: seq<UploadJob>): set<string> {
    set i | 0 <= i < |jobs| && jobs[i].status == Success :: jobs[i].id
  }

  predicate AnyProcessing(jobs: seq<UploadJob>) {
    exists i :: 0 <= i < |jobs| && jobs[i].status == Processing
  }

  /** One pass of the loop in `update`: a failure is recorded, a success is recorded unless
      its id is already there, and a job still processing keeps polling going. */
  function Absorb(p: Poller, job: UploadJob): (q: Poller)
    ensures job.status == Failed ==> q == p.(failed := p.failed + [job.id])
    ensures job.status == Success && job.id in p.successful ==> q == p
    ensures job.status == Success && job.id !in p.successful ==> q == p.(successful := p.successful + [job.id])
    ensures job.status == Processing ==> q == p.(ongoing := true)
  {
    match job.status
    case Failed => p.(failed := p.failed + [job.id])
    case Success => if job.id in p.successful then p else p.(successful := p.successful + [job.id])
    case Processing => p.(ongoing := true)
  }

  /** The loop of `update` over a tick's jobs, in order. */
  function AbsorbAll(p: Poller, jobs: seq<UploadJob>): (q: Poller)
    ensures q.failed == p.failed + FailedIds(jobs)
    ensures q.ongoing <==> p.ongoing || AnyProcessing(jobs)
    ensures |p.successful| <= |q.successful| && q.successful[..|p.successful|] == p.successful
    ensures Elems(q.successful) == Elems(p.successful) + SuccessIds(jobs)
    ensures NoDuplicates(p.successful) ==> NoDuplicates(q.successful)
    decreases |jobs|
  {
    if |jobs| == 0 then p
    else
      var q := AbsorbAll(Absorb(p, jobs[0]), jobs[1..]);
      FailedStep(p.failed, jobs, FailedIds(jobs[1..]));
      AnyProcessingSplit(jobs);
      SuccessfulStep(p, jobs, q.successful);
      q
  }

  /** One job more keeps `AbsorbAll`'s contract on the failed list. */
  lemma FailedStep(failed: seq<string>, jobs: seq<UploadJob>, rest: seq<string>)
    requires |jobs| > 0 && rest == FailedIds(jobs[1..])
    ensures (if jobs[0].status == Failed then failed + [jobs[0].id] else failed) + rest == failed + FailedIds(jobs)
  {
    if jobs[0].status == Failed {
      assert FailedIds(jobs) == [jobs[0].id] + rest;
      AppendAssoc(failed, [jobs[0].id], rest);
    } else {
      assert FailedIds(jobs) == rest;
    }
  }

  lemma AppendAssoc(a: seq<string>, b: seq<string>, c: seq<string>)
    ensures a + b + c == a + (b + c)
  {
  }

  /** One job more keeps `AbsorbAll`'s contract on the successful list. */
  lemma SuccessfulStep(p: Poller, jobs: seq<UploadJob>, q: seq<string>)
    requires |jobs| > 0
    requires var r := Absorb(p, jobs[0]).successful;
             && |r| <= |q| && q[..|r|] == r
             && Elems(q) == Elems(r) + SuccessIds(jobs[1..])
             && (NoDuplicates(r) ==> NoDuplicates(q))
    ensures |p.successful| <= |q| && q[..|p.successful|] == p.successful
    ensures Elems(q) == Elems(p.successful) + SuccessIds(jobs)
    ensures NoDuplicates(p.successful) ==> NoDuplicates(q)
  {
    var r := Absorb(p, jobs[0]).successful;
    SuccessIdsSplit(jobs);
    if jobs[0].status == Success && jobs[0].id !in p.successful {
      ElemsAppend(p.successful, jobs[0].id);
      PrefixOfPrefix(p.successful, r, q);
    }
  }

  lemma AnyProcessingSplit(jobs: seq<UploadJob>)
    requires |jobs| > 0
    ensures AnyProcessing(jobs) <==> jobs[0].status == Processing || AnyProcessing(jobs[1..])
  {
    if AnyProcessing(jobs[1..]) {
      var i :| 0 <= i < |jobs[1..]| && jobs[1..][i].status == Processing;
      assert jobs[i + 1].status == Processing;
    }
    if AnyProcessing(jobs) {
      var i :| 0 <= i < |jobs| && jobs[i].status == Processing;
      if i > 0 {
        assert jobs[1..][i - 1].status == Processing;
      }
    }
  }

  lemma PrefixOfPrefix(a: seq<string>, b: seq<string>, c: seq<string>)
    requires |a| <= |b| <= |c| && b[..|a|] == a && c[..|b|] == b
    ensures c[..|a|] == a
  {
    assert c[..|a|] == c[..|b|][..|a|];
  }

  /** Appending a new id keeps the list free of repeats and adds the id to its elements. */
  lemma ElemsAppend(s: seq<string>, x: string)
    requires x !in s
    ensures Elems(s + [x]) == Elems(s) + {x}
    ensures NoDuplicates(s) ==> NoDuplicates(s + [x])
  {
  }

  lemma SuccessIdsSplit(jobs: seq<UploadJob>)
    requires |jobs| > 0
    ensures SuccessIds(jobs) == (if jobs[0].status == Success then {jobs[0].id} else {}) + SuccessIds(jobs[1..])
  {
    forall x | x in SuccessIds(jobs)
      ensures x in (if jobs[0].status == Success then {jobs[0].id} else {}) + SuccessIds(jobs[1..])
    {
      var i :| 0 <= i < |jobs| && jobs[i].status == Success && jobs[i].id == x;
      if i > 0 {
        assert jobs[1..][i - 1] == jobs[i];
      }
    }
    forall x | x in SuccessIds(jobs[1..]) ensures x in SuccessIds(jobs) {
      var i :| 0 <= i < |jobs[1..]| && jobs[1..][i].status == Success && jobs[1..][i].id == x;
      assert jobs[i + 1] == jobs[1..][i];
    }
  }

  /** `Polling.update`: `ongoing` is cleared, then the tick's jobs are folded in. */
  function Update(p: Poller, jobs: seq<UploadJob>): (q: Poller)
    ensures q.ongoing <==> AnyProcessing(jobs)
    ensures q.failed == p.failed + FailedIds(jobs)
    ensures |p.successful| <= |q.successful| && q.successful[..|p.successful|] == p.successful
    ensures Elems(q.successful) == Elems(p.successful) + SuccessIds(jobs)
    ensures NoDuplicates(p.successful) ==> NoDuplicates(q.successful)
  {
    AbsorbAll(p.(ongoing := false), jobs)
  }

  /** A tick's list of failed ids is empty exactly when none of its jobs failed. */
  lemma {:induction false} FailedIdsEmpty(jobs: seq<UploadJob>)
    ensures FailedIds(jobs) == [] <==> forall i :: 0 <= i < |jobs| ==> jobs[i].status != Failed
    decreases |jobs|
  {
    if |jobs| > 0 {
      FailedIdsEmpty(jobs[1..]);
      assert forall i :: 1 <= i < |jobs| ==> jobs[i] == jobs[1..][i - 1];
    }
  }

  /** A tick whose successes are all known already leaves the successful list as it was. */
  lemma {:induction false} KnownSuccessesAddNothing(p: Poller, jobs: seq<UploadJob>)
    requires SuccessIds(jobs) <= Elems(p.successful)
    ensures AbsorbAll(p, jobs).successful == p.successful
    decreases |jobs|
  {
    if |jobs| > 0 {
      SuccessIdsSplit(jobs);
      var q := Absorb(p, jobs[0]);
      assert q.successful == p.successful;
      KnownSuccessesAddNothing(q, jobs[1..]);
    }
  }

  /** Seeing the same tick twice reports no success twice. */
  lemma UpdateTwiceAddsNoSuccess(p: Poller, jobs: seq<UploadJob>)
    ensures Update(Update(p, jobs), jobs).successful == Update(p, jobs).successful
  {
    var q := Update(p, jobs);
    KnownSuccessesAddNothing(q.(ongoing := false), jobs);
  }

  /** Jobs 1 and 2 succeed, 3 is processing, 4 and 5 fail: polling goes on, both failures
      are recorded, and a later tick where 1 and 2 succeed again reports neither twice. */
  lemma FirstTickScenario()
    ensures var first := Update(Fresh, [UploadJob("1", Success), UploadJob("2", Success),
                                        UploadJob("3", Processing), UploadJob("4", Failed),
                                        UploadJob("5", Failed)]);
            && first == Poller(["1", "2"], ["4", "5"], true)
            && Update(first, [UploadJob("1", Success), UploadJob("2", Success)]).successful == ["1", "2"]
  {
    FirstTick();
    SecondTick();
  }

  lemma FirstTick()
    ensures Update(Fresh, [UploadJob("1", Success), UploadJob("2", Success), UploadJob("3", Processing),
                           UploadJob("4", Failed), UploadJob("5", Failed)])
            == Poller(["1", "2"], ["4", "5"], true)
  {
    var p := Poller(["1", "2"], [], false);
    ScenarioSuccesses();
    ScenarioRest(p, UploadJob("3", Processing), UploadJob("4", Failed), UploadJob("5", Failed));
    assert p.failed + ["4", "5"] == ["4", "5"];
  }

  lemma SecondTick()
    ensures Update(Poller(["1", "2"], ["4", "5"], true), [UploadJob("1", Success), UploadJob("2", Success)]).successful
            == ["1", "2"]
  {
    var q := Poller(["1", "2"], ["4", "5"], false);
    KnownSuccessesAddNothing(q, [UploadJob("1", Success), UploadJob("2", Success)]);
  }

  /** The first two jobs of the scenario are recorded as successes. */
  lemma ScenarioSuccesses()
    ensures AbsorbAll(Poller([], [], false), [UploadJob("1", Success), UploadJob("2", Success),
                                              UploadJob("3", Processing), UploadJob("4", Failed),
                                              UploadJob("5", Failed)])
            == AbsorbAll(Poller(["1", "2"], [], false), [UploadJob("3", Processing), UploadJob("4", Failed),
                                                          UploadJob("5", Failed)])
  {
    var j1, j2 := UploadJob("1", Success), UploadJob("2", Success);
    var rest := [UploadJob("3", Processing), UploadJob("4", Failed), UploadJob("5", Failed)];
    assert [j1, j2, rest[0], rest[1], rest[2]] == [j1] + ([j2] + rest);
    assert Absorb(Poller([], [], false), j1) == Poller(["1"], [], false);
    AbsorbAllCons(Poller([], [], false), j1, [j2] + rest);
    SecondSuccess(rest);
  }

  lemma SecondSuccess(rest: seq<UploadJob>)
    ensures AbsorbAll(Poller(["1"], [], false), [UploadJob("2", Success)] + rest)
            == AbsorbAll(Poller(["1", "2"], [], false), rest)
  {
    var q1 := Poller(["1"], [], false);
    assert "2" !in q1.successful;
    assert Absorb(q1, UploadJob("2", Success)) == Poller(["1", "2"], [], false);
    AbsorbAllCons(q1, UploadJob("2", Success), rest);
  }

  /** A job still processing followed by two failures keeps polling going and records
      both failures, in order. */
  lemma ScenarioRest(p: Poller, a: UploadJob, b: UploadJob, c: UploadJob)
    requires a.status == Processing && b.status == Failed && c.status == Failed
    ensures AbsorbAll(p, [a, b, c]) == Poller(p.successful, p.failed + [b.id, c.id], true)
  {
    var q3 := p.(ongoing := true);
    var q4 := q3.(failed := p.failed + [b.id]);
    AbsorbAllCons(q4, c, []);
    AbsorbAllCons(q3, b, [c]);
    AbsorbAllCons(p, a, [b, c]);
    assert p.failed + [b.id] + [c.id] == p.failed + [b.id, c.id];
  }

  lemma AbsorbAllCons(p: Poller, job: UploadJob, rest: seq<UploadJob>)
    ensures AbsorbAll(p, [job] + rest) == AbsorbAll(Absorb(p, job), rest)
  {
    assert ([job] + rest)[1..] == rest;
  }

  /** Across any run of ticks the successful list never holds an id twice. */
  lemma {:induction false} SuccessesStayDistinct(p: Poller, ticks: seq<seq<UploadJob>>)
    requires NoDuplicates(p.successful)
    ensures NoDuplicates(UpdateAll(p, ticks).successful)
    ensures UpdateAll(p, ticks).failed == p.failed + AllFailedIds(ticks)
    decreases |ticks|
  {
    if |ticks| > 0 {
      var q := Update(p, ticks[0]);
      SuccessesStayDistinct(q, ticks[1..]);
      AppendAssoc(p.failed, FailedIds(ticks[0]), AllFailedIds(ticks[1..]));
    }
  }

  /** Several ticks, in order. */
  function UpdateAll(p: Poller, ticks: seq<seq<UploadJob>>): Poller
    decreases |ticks|
  {
    if |ticks| == 0 then p else UpdateAll(Update(p, ticks[0]), ticks[1..])
  }

  /** The failed ids of several ticks, in order, repeats kept. */
  function AllFailedIds(ticks: seq<seq<UploadJob>>): seq<string>
    decreases |ticks|
  {
    if |ticks| == 0 then [] else FailedIds(ticks[0]) + AllFailedIds(ticks[1..])
  }

  /** One tick more is one `update` more. */
  lemma {:induction false} UpdateAllSnoc(p: Poller, ticks: seq<seq<UploadJob>>, jobs: seq<UploadJob>)
    ensures UpdateAll(p, ticks + [jobs]) == Update(UpdateAll(p, ticks), jobs)
    decreases |ticks|
  {
    if |ticks| == 0 {
      assert ([] + [jobs])[1..] == [];
    } else {
      assert (ticks + [jobs])[0] == ticks[0] && (ticks + [jobs])[1..] == ticks[1..] + [jobs];
      UpdateAllSnoc(Update(p, ticks[0]), ticks[1..], jobs);
    }
  }

  /** A fresh poller run over any ticks: polling goes on exactly while no tick was read or
      the last one still had a job processing, every failed id is kept in order, and no
      success is recorded twice. */
  lemma {:induction false} FreshRun(ticks: seq<seq<UploadJob>>)
    ensures UpdateAll(Fresh, ticks).ongoing <==> |ticks| == 0 || AnyProcessing(ticks[|ticks| - 1])
    ensures UpdateAll(Fresh, ticks).failed == AllFailedIds(ticks)
    ensures NoDuplicates(UpdateAll(Fresh, ticks).successful)
  {
    SuccessesStayDistinct(Fresh, ticks);
    if |ticks| > 0 {
      var n := |ticks| - 1;
      assert ticks == ticks[..n] + [ticks[n]];
      UpdateAllSnoc(Fresh, ticks[..n], ticks[n]);
    }
  }
}

=== FILE: results.dfy ===
/** Option and Result, the failure-carrying wrappers that stand in for Python's `None`
    and for raised exceptions, and the "apply to each element until the first failure"
    combinators that every raising loop of the client is built from. */
module Results {

  datatype Option<+T> = None | Some(value: T) {

    /** The wrapped value, or `default` when there is none (Python's `dict.get(k, default)`). */
    function GetOr(default: T): T {
      match this
      case Some(v) => v
      case None => default
    }
  }

  /** A computed value, or the error a Python function would have raised instead. */
  datatype Result<+T, +E> = Ok(value: T) | Err(error: E) {

    predicate IsFailure() {
      Err?
    }

    function PropagateFailure<U>(): Result<U, E>
      requires Err?
    {
      Err(error)
    }

    function Extract(): T
      requires Ok?
    {
      value
    }
  }

  /** What a loop that raises on its first failure has produced by the time it stops:
      the results for the elements before the failure, and the failure if there was one.
      For a Python generator, `done` is what the consumer has already received. */
  datatype Partial<+T, +E> = Partial(done: seq<T>, failure: Option<E>)

  /** Applies `f` to the elements of `xs` in order and stops at the first failure. */
  function MapPrefix<A, B(==), E(==)>(f: A -> Result<B, E>, xs: seq<A>): (p: Partial<B, E>)
    ensures |p.done| <= |xs|
    ensures forall i :: 0 <= i < |p.done| ==> f(xs[i]) == Ok(p.done[i])
    ensures p.failure.None? ==> |p.done| == |xs|
    ensures p.failure.Some? ==> |p.done| < |xs| && f(xs[|p.done|]) == Err(p.failure.value)
  {
    if |xs| == 0 then Partial([], None)
    else match f(xs[0])
      case Err(e) => Partial([], Some(e))
      case Ok(y) =>
        var rest := MapPrefix(f, xs[1..]);
        Partial([y] + rest.done, rest.failure)
  }

  /** A list comprehension whose element expression may raise: all the results, or the
      error of the first element that fails. */
  function MapAll<A, B(==), E(==)>(f: A -> Result<B, E>, xs: seq<A>): (r: Result<seq<B>, E>)
    ensures r.Ok? <==> forall i :: 0 <= i < |xs| ==> f(xs[i]).Ok?
    ensures r.Ok? ==> |r.value| == |xs| && forall i :: 0 <= i < |xs| ==> f(xs[i]) == Ok(r.value[i])
    ensures r.Err? ==> exists i :: 0 <= i < |xs| && f(xs[i]) == Err(r.error)
                                   && forall k :: 0 <= k < i ==> f(xs[k]).Ok?
  {
    var p := MapPrefix(f, xs);
    match p.failure
    case Some(e) => Err(e)
    case None => Ok(p.done)
  }

  /** `ys` are the successful results of `f` on the first `|ys|` elements of `xs`, in order. */
  predicate Matches<A, B(==), E(==)>(f: A -> Result<B, E>, xs: seq<A>, ys: seq<B>)
    decreases |ys|
  {
    && |ys| <= |xs|
    && (|ys| > 0 ==> f(xs[0]) == Ok(ys[0]) && Matches(f, xs[1..], ys[1..]))
  }

  /** Element `k` of `ys` is what `f` made of element `k` of `xs`. */
  lemma {:induction false} MatchesAt<A, B, E>(f: A -> Result<B, E>, xs: seq<A>, ys: seq<B>)
    requires Matches(f, xs, ys)
    ensures forall k :: 0 <= k < |ys| ==> f(xs[k]) == Ok(ys[k])
    decreases |ys|
  {
    if |ys| > 0 {
      MatchesAt(f, xs[1..], ys[1..]);
      forall k | 0 < k < |ys|
        ensures f(xs[k]) == Ok(ys[k])
      {
        assert xs[k] == xs[1..][k - 1] && ys[k] == ys[1..][k - 1];
      }
    }
  }
}

=== FILE: strings.dfy ===
/** The two string operations the client relies on: cutting at the first separator
    and lower-casing. */
module Strings {
  import opened Results

  /** `s.split(sep, 1)` unpacked into two names: the text before the first `sep` and the
      text after it, or `None` where the unpacking raises `ValueError`. */
  function SplitOnce(s: string, sep: char): (r: Option<(string, string)>)
    ensures r.None? <==> sep !in s
    ensures r.Some? ==> s == r.value.0 + [sep] + r.value.1 && sep !in r.value.0
  {
    if |s| == 0 then None
    else if s[0] == sep then Some(([], s[1..]))
    else match SplitOnce(s[1..], sep)
      case None => None
      case Some((before, after)) => Some(([s[0]] + before, after))
  }

  /** Splitting a string built around a separator that its prefix lacks gives back
      the two pieces. */
  lemma {:induction false} SplitOnceAt(before: string, sep: char, after: string)
    requires sep !in before
    ensures SplitOnce(before + [sep] + after, sep) == Some((before, after))
  {
    var s := before + [sep] + after;
    if |before| == 0 {
      assert s == [sep] + after;
    } else {
      assert s[0] == before[0] != sep;
      assert s[1..] == before[1..] + [sep] + after;
      SplitOnceAt(before[1..], sep, after);
      assert [before[0]] + before[1..] == before;
    }
  }

  function LowerChar(c: char): char {
    if 'A' <= c <= 'Z' then (c as int - 'A' as int + 'a' as int) as char else c
  }

  /** `str.lower()` on ASCII letters. */
  function Lower(s: string): (r: string)
    ensures |r| == |s|
    ensures forall i :: 0 <= i < |s| ==> r[i] == LowerChar(s[i])
  {
    if |s| == 0 then [] else [LowerChar(s[0])] + Lower(s[1..])
  }

  /** Lower-casing twice is lower-casing once, and it leaves characters that are not
      letters where they are, so it neither adds nor removes separators. */
  lemma LowerIsIdempotent(s: string)
    ensures Lower(Lower(s)) == Lower(s)
    ensures forall c :: !('A' <= c <= 'Z') && !('a' <= c <= 'z') ==> (c in Lower(s) <==> c in s)
  {
    assert forall i :: 0 <= i < |s| ==> Lower(Lower(s))[i] == Lower(s)[i];
    forall c | !('A' <= c <= 'Z') && !('a' <= c <= 'z')
      ensures c in Lower(s) <==> c in s
    {
      if c in Lower(s) {
        var i :| 0 <= i < |s| && Lower(s)[i] == c;
        assert s[i] == c;
      }
      if c in s {
        var i :| 0 <= i < |s| && s[i] == c;
        assert Lower(s)[i] == c;
      }
    }
  }
}

=== FILE: upload_example.dfy ===
/** The upload driver: create a dataset wrapper, upload every file into it, poll the
    upload jobs until none is processing, and complete the upload. The service is a
    parameter that answers each request; the thread pool is replaced by submission order. */
module UploadExample {
  import opened Results
  import opened Errors
  import opened DatasetClient
  import opened Polling

  /** The service, through the client's methods: what `create_wrapper` returns (`WrapperId`
      of the service's answer), what the upload of each request returns (`UploadId`), what
      each successive `get_status` returns (`GetStatus`), and whether `complete_upload`
      raises (`Some` when it does). */
  datatype Server = Server(
    createWrapper: Result<string, Error>,
    upload: Call -> Result<string, Error>,
    statuses: seq<Result<seq<UploadJob>, Error>>,
    complete: Option<Error>)

  /** How the driver ends: finished, raised, or still polling when the service's scripted
      status answers ran out. */
  datatype Outcome = Completed | Raised(error: Error) | StillPolling

  /** `min(10, len(file_paths))`: the size of the upload thread pool. */
  function Workers(files: nat): (w: nat)
    ensures w <= 10 && w <= files
    ensures w == 10 || w == files
  {
    if files < 10 then files else 10
  }

  /** What submitting one file does: the upload request it sends, if the file validates,
      and the error its future ends with, if any. */
  datatype Attempt = Attempt(sent: Option<Call>, failure: Option<Error>)

  function AttemptUpload(isFile: string -> bool, server: Server, wrapperId: string, path: string): (a: Attempt)
    ensures a.sent.Some? <==> ValidateFile(isFile, path).Ok?
    ensures a.sent.Some? ==> a.sent.value == UploadCall(wrapperId, path, ValidateFile(isFile, path).value)
    ensures a.failure.None? <==> a.sent.Some? && server.upload(a.sent.value).Ok?
    ensures a.sent.None? ==> a.failure == Some(ValidateFile(isFile, path).error)
    ensures a.sent.Some? && server.upload(a.sent.value).Err? ==> a.failure == Some(server.upload(a.sent.value).error)
  {
    match UploadRequest(isFile, path, wrapperId)
    case Err(e) => Attempt(None, Some(e))
    case Ok(call) =>
      match server.upload(call)
      case Err(e) => Attempt(Some(call), Some(e))
      case Ok(_) => Attempt(Some(call), None)
  }

  /** `attempts` are the attempts the files of `paths` make, in submission order. The
      link to each file's validation is only drawn for a file that is named. */
  predicate Submitted(isFile: string -> bool, server: Server, wrapperId: string, paths: seq<string>,
                      attempts: seq<Attempt>)
  {
    && |attempts| == |paths|
    && forall i {:trigger paths[i]} :: 0 <= i < |paths| ==> attempts[i] == AttemptUpload(isFile, server, wrapperId, paths[i])
  }

  /** Submitting every file to the pool, in order; each request goes to the wrapper. */
  method SubmitAll(isFile: string -> bool, server: Server, wrapperId: string, paths: seq<string>)
    returns (attempts: seq<Attempt>)
    ensures Submitted(isFile, server, wrapperId, paths, attempts)
    ensures forall i :: 0 <= i < |attempts| && attempts[i].sent.Some? ==> UploadsTo(attempts[i].sent.value, wrapperId)
  {
    attempts := [];
    for k := 0 to |paths|
      invariant Submitted(isFile, server, wrapperId, paths[..k], attempts)
      invariant forall i :: 0 <= i < |attempts| && attempts[i].sent.Some? ==> UploadsTo(attempts[i].sent.value, wrapperId)
    {
      var a := AttemptUpload(isFile, server, wrapperId, paths[k]);
      SubmittedSnoc(isFile, server, wrapperId, paths, k, attempts);
      attempts := attempts + [a];
    }
    assert paths[..|paths|] == paths;
  }

  /** Submitting one more file extends the attempts by that file's attempt. */
  lemma SubmittedSnoc(isFile: string -> bool, server: Server, wrapperId: string, paths: seq<string>, k: nat,
                      attempts: seq<Attempt>)
    requires k < |paths|
    requires Submitted(isFile, server, wrapperId, paths[..k], attempts)
    ensures Submitted(isFile, server, wrapperId, paths[..k + 1], attempts + [AttemptUpload(isFile, server, wrapperId, paths[k])])
  {
    var a := AttemptUpload(isFile, server, wrapperId, paths[k]);
    forall i | 0 <= i < k + 1
      ensures (attempts + [a])[i] == AttemptUpload(isFile, server, wrapperId, paths[..k + 1][i])
    {
      if i < k {
        assert paths[..k + 1][i] == paths[..k][i];
      }
    }
  }

  /** The upload requests the attempts sent, in submission order. */
  function Sent(attempts: seq<Attempt>): (calls: seq<Call>)
    ensures |calls| <= |attempts|
    decreases |attempts|
  {
    if |attempts| == 0 then []
    else
      var n := |attempts| - 1;
      Sent(attempts[..n]) + (if attempts[n].sent.Some? then [attempts[n].sent.value] else [])
  }

  /** When every file validated, every attempt sent exactly its own request. */
  lemma {:induction false} SentAll(attempts: seq<Attempt>)
    requires forall i :: 0 <= i < |attempts| ==> attempts[i].sent.Some?
    ensures |Sent(attempts)| == |attempts|
    ensures forall i :: 0 <= i < |attempts| ==> attempts[i].sent == Some(Sent(attempts)[i])
    decreases |attempts|
  {
    if |attempts| > 0 {
      var n := |attempts| - 1;
      assert forall i :: 0 <= i < n ==> attempts[..n][i] == attempts[i];
      SentAll(attempts[..n]);
    }
  }

  /** The error of the first attempt, in submission order, that failed. */
  function FirstFailure(attempts: seq<Attempt>): (f: Option<Error>)
    ensures f.None? <==> forall i :: 0 <= i < |attempts| ==> attempts[i].failure.None?
    decreases |attempts|
  {
    if |attempts| == 0 then None
    else
      var n := |attempts| - 1;
      assert forall i :: 0 <= i < n ==> attempts[..n][i] == attempts[i];
      var earlier := FirstFailure(attempts[..n]);
      if earlier.Some? then earlier else attempts[n].failure
  }

  /** The error raised is that of an attempt all of whose predecessors succeeded. */
  lemma {:induction false} FirstFailureIsFirst(attempts: seq<Attempt>)
    requires FirstFailure(attempts).Some?
    ensures exists i :: 0 <= i < |attempts| && attempts[i].failure == FirstFailure(attempts)
                        && forall j :: 0 <= j < i ==> attempts[j].failure.None?
    decreases |attempts|
  {
    var n := |attempts| - 1;
    assert forall i :: 0 <= i < n ==> attempts[..n][i] == attempts[i];
    if FirstFailure(attempts[..n]).Some? {
      FirstFailureIsFirst(attempts[..n]);
      var i :| 0 <= i < n && attempts[..n][i].failure == FirstFailure(attempts[..n])
               && forall j :: 0 <= j < i ==> attempts[..n][j].failure.None?;
      assert attempts[i].failure == FirstFailure(attempts);
    } else {
      assert attempts[n].failure == FirstFailure(attempts);
    }
  }

  /** `n` status requests for the wrapper. */
  function Polls(wrapperId: string, n: nat): (calls: seq<Call>)
    ensures |calls| == n && forall k :: 0 <= k < n ==> calls[k] == StatusCall(wrapperId)
  {
    if n == 0 then [] else Polls(wrapperId, n - 1) + [StatusCall(wrapperId)]
  }

  /** Every request after the first is about the wrapper `wrapperId`. */
  predicate CarriesWrapper(call: Call, wrapperId: string) {
    match call
    case CreateWrapperCall(_, _) => false
    case UploadCall(w, _, _) => w == wrapperId
    case StatusCall(w) => w == wrapperId
    case CompleteCall(w) => w == wrapperId
  }

  /** The last request completed the upload. */
  predicate Finalised(calls: seq<Call>) {
    |calls| > 0 && calls[|calls| - 1].CompleteCall?
  }

  /** The requests of the polling phase: one status request per tick, then the completion
      if polling settled. */
  predicate PollLog(tail: seq<Call>, wrapperId: string, ticks: nat) {
    tail == Polls(wrapperId, ticks) || tail == Polls(wrapperId, ticks) + [CompleteCall(wrapperId)]
  }

  /** The tick `ticks` read successfully, and what `Polling` made of it. */
  predicate LastTickRead(server: Server, ticks: nat, poller: Poller)
    requires 0 < ticks <= |server.statuses|
  {
    && server.statuses[ticks - 1].Ok?
    && (poller.ongoing <==> AnyProcessing(server.statuses[ticks - 1].value))
    && poller.failed == FailedIds(server.statuses[ticks - 1].value)
  }

  /** Every tick before the last one read came back, still had a job processing and had
      no failed job: polling had to go on past it. */
  predicate EarlierTicksPending(server: Server, ticks: nat)
    requires ticks <= |server.statuses|
  {
    forall k :: 0 <= k < ticks - 1 ==>
      && server.statuses[k].Ok?
      && AnyProcessing(server.statuses[k].value)
      && FailedIds(server.statuses[k].value) == []
  }

  /** The answers of the first `n` status requests, all of which came back. */
  function TicksRead(server: Server, n: nat): (ticks: seq<seq<UploadJob>>)
    requires n <= |server.statuses|
    requires forall k :: 0 <= k < n ==> server.statuses[k].Ok?
    ensures |ticks| == n
    decreases n
  {
    if n == 0 then [] else TicksRead(server, n - 1) + [server.statuses[n - 1].value]
  }

  /** The poller is what `Polling` made of the ticks read, in order: only earlier ticks that
      kept polling going and had no failed job, each folded in by `update`; and when the
      last status request failed, `update` had cleared `ongoing` before making it. */
  predicate PolledThrough(server: Server, ticks: nat, poller: Poller) {
    && ticks <= |server.statuses|
    && EarlierTicksPending(server, ticks)
    && (ticks == 0 ==> poller == Fresh)
    && (0 < ticks && server.statuses[ticks - 1].Ok? ==> poller == UpdateAll(Fresh, TicksRead(server, ticks)))
    && (0 < ticks && server.statuses[ticks - 1].Err? ==>
          poller == UpdateAll(Fresh, TicksRead(server, ticks - 1)).(ongoing := false))
  }

  /** One pass of the polling loop on the next status answer: `update` clears `ongoing`
      before it asks for the status, so a failed request leaves it cleared and is raised;
      otherwise the tick's jobs are folded in, and a failed job among those seen is raised. */
  function Tick(poller: Poller, answer: Result<seq<UploadJob>, Error>): (next: (Poller, Option<Error>))
    ensures answer.Err? ==> next == (poller.(ongoing := false), Some(answer.error))
    ensures answer.Ok? ==> next.0 == Update(poller, answer.value)
    ensures answer.Ok? ==> (next.1.Some? <==> poller.failed + FailedIds(answer.value) != [])
    ensures next.1.Some? && answer.Ok? ==> next.1.value == FailedJobs(next.0.failed)
  {
    match answer
    case Err(e) => (poller.(ongoing := false), Some(e))
    case Ok(jobs) =>
      var q := Update(poller, jobs);
      (q, if |q.failed| > 0 then Some(FailedJobs(q.failed)) else None)
  }

  /** What holds of the polling loop after `ticks` status requests: the poller is what
      `Polling` made of them; while nothing was raised, the last answer came back with no
      failed job; once something was raised, it is the failed request's error or the
      failed jobs. */
  predicate PollInvariant(server: Server, ticks: nat, poller: Poller, failure: Option<Error>) {
    && ticks <= |server.statuses|
    && PolledThrough(server, ticks, poller)
    && NoDuplicates(poller.successful)
    && (ticks == 0 ==> poller.ongoing && failure.None?)
    && (0 < ticks && server.statuses[ticks - 1].Ok? ==> LastTickRead(server, ticks, poller))
    && (failure.None? ==> poller.failed == [] && (0 < ticks ==> server.statuses[ticks - 1].Ok?))
    && (failure.Some? ==>
          && 0 < ticks
          && (server.statuses[ticks - 1].Err? ==> failure.value == server.statuses[ticks - 1].error
                                                  && poller.failed == [])
          && (server.statuses[ticks - 1].Ok? ==> poller.failed != [] && failure.value == FailedJobs(poller.failed)))
  }

  /** A pass of the loop, taken while polling goes on and nothing was raised, keeps the
      invariant. */
  lemma TickKeeps(server: Server, ticks: nat, poller: Poller)
    requires ticks < |server.statuses| && poller.ongoing
    requires PollInvariant(server, ticks, poller, None)
    ensures var next := Tick(poller, server.statuses[ticks]);
            PollInvariant(server, ticks + 1, next.0, next.1)
  {
    PendingGrows(server, ticks, poller);
    if server.statuses[ticks].Ok? {
      TickOnJobsKeeps(server, ticks, poller);
    } else {
      TickOnError(server, ticks, poller);
    }
  }

  /** A failed status request is raised, with the poller as it was but for `ongoing`. */
  lemma TickOnError(server: Server, ticks: nat, poller: Poller)
    requires ticks < |server.statuses| && server.statuses[ticks].Err?
    requires PollInvariant(server, ticks, poller, None) && EarlierTicksPending(server, ticks + 1)
    ensures PollInvariant(server, ticks + 1, poller.(ongoing := false), Some(server.statuses[ticks].error))
  {
    ReadSoFar(server, ticks, poller);
  }

  /** A tick that came back is folded in, and its failed jobs, if any, are raised. */
  lemma TickOnJobsKeeps(server: Server, ticks: nat, poller: Poller)
    requires ticks < |server.statuses| && server.statuses[ticks].Ok?
    requires PollInvariant(server, ticks, poller, None) && EarlierTicksPending(server, ticks + 1)
    ensures var next := Tick(poller, server.statuses[ticks]);
            PollInvariant(server, ticks + 1, next.0, next.1)
  {
    TickOnJobs(server, ticks, poller);
  }

  /** The tick just read kept polling going with no failed job, so it joins the earlier
      ticks. */
  lemma PendingGrows(server: Server, ticks: nat, poller: Poller)
    requires ticks < |server.statuses| && poller.ongoing && poller.failed == []
    requires EarlierTicksPending(server, ticks)
    requires 0 < ticks ==> LastTickRead(server, ticks, poller)
    ensures EarlierTicksPending(server, ticks + 1)
  {
  }

  /** A tick that came back is folded into the poller. */
  lemma TickOnJobs(server: Server, ticks: nat, poller: Poller)
    requires ticks < |server.statuses| && server.statuses[ticks].Ok?
    requires PolledThrough(server, ticks, poller) && EarlierTicksPending(server, ticks + 1)
    requires 0 < ticks ==> server.statuses[ticks - 1].Ok?
    ensures PolledThrough(server, ticks + 1, Update(poller, server.statuses[ticks].value))
  {
    ReadSoFar(server, ticks, poller);
    ReadOneMore(server, ticks, poller);
  }

  /** While every answer so far came back, the poller is `update` run over all of them. */
  lemma ReadSoFar(server: Server, ticks: nat, poller: Poller)
    requires PolledThrough(server, ticks, poller)
    requires forall k :: 0 <= k < ticks ==> server.statuses[k].Ok?
    ensures poller == UpdateAll(Fresh, TicksRead(server, ticks))
  {
  }

  /** One more answer that came back is one `update` more. */
  lemma ReadOneMore(server: Server, ticks: nat, poller: Poller)
    requires ticks < |server.statuses|
    requires forall k :: 0 <= k <= ticks ==> server.statuses[k].Ok?
    requires poller == UpdateAll(Fresh, TicksRead(server, ticks))
    ensures Update(poller, server.statuses[ticks].value) == UpdateAll(Fresh, TicksRead(server, ticks + 1))
  {
    UpdateAllSnoc(Fresh, TicksRead(server, ticks), server.statuses[ticks].value);
  }

  predicate UploadsTo(call: Call, wrapperId: string) {
    call.UploadCall? && call.wrapperId == wrapperId
  }

  /** Every upload request goes to the wrapper its attempt was for. */
  lemma {:induction false} SentCarriesWrapper(attempts: seq<Attempt>, wrapperId: string)
    requires forall i :: 0 <= i < |attempts| && attempts[i].sent.Some? ==> UploadsTo(attempts[i].sent.value, wrapperId)
    ensures forall k :: 0 <= k < |Sent(attempts)| ==> UploadsTo(Sent(attempts)[k], wrapperId)
    decreases |attempts|
  {
    if |attempts| > 0 {
      var n := |attempts| - 1;
      assert forall i :: 0 <= i < n ==> attempts[..n][i] == attempts[i];
      SentCarriesWrapper(attempts[..n], wrapperId);
    }
  }

  /** How polling and completion ended, given whether the log ends with the completion:
      the tick counter stays within the scripted answers, the successful ids stay distinct,
      the last tick read is what `Polling` saw, and the outcome is raised exactly for a
      failed status request, a failed job or a failed completion. */
  predicate PollingEnded(server: Server, outcome: Outcome, finalised: bool, poller: Poller, ticks: nat) {
    && ticks <= |server.statuses|
    && PolledThrough(server, ticks, poller)
    && NoDuplicates(poller.successful)
    && (0 < ticks && server.statuses[ticks - 1].Ok? ==> LastTickRead(server, ticks, poller))
    && (0 < ticks && server.statuses[ticks - 1].Err? ==>
          outcome == Raised(server.statuses[ticks - 1].error) && !finalised)
    && (outcome.StillPolling? ==> ticks == |server.statuses| && poller.ongoing && poller.failed == [])
    && (poller.failed != [] ==> outcome == Raised(FailedJobs(poller.failed)) && !finalised)
    && (finalised ==> 0 < ticks && LastTickRead(server, ticks, poller) && !poller.ongoing && poller.failed == [])
    && (outcome.Completed? <==> finalised && server.complete.None?)
    && (finalised && server.complete.Some? ==> outcome == Raised(server.complete.value))
    && (outcome.Raised? ==> || (0 < ticks && server.statuses[ticks - 1].Err?)
                            || poller.failed != []
                            || (finalised && server.complete.Some?))
  }

  /** A tick on which nothing is processing any more ends polling: no poller has read the
      status answer after it. */
  lemma NoTickAfterSettledTick(upload: Call -> Result<string, Error>, poller: Poller)
    ensures var server := Server(Ok("w"), upload,
                                 [Ok([UploadJob("a", Success)]), Ok([UploadJob("a", Success)])], None);
            !PolledThrough(server, 2, poller)
  {
    var server := Server(Ok("w"), upload,
                         [Ok([UploadJob("a", Success)]), Ok([UploadJob("a", Success)])], None);
    assert !AnyProcessing(server.statuses[0].value);
  }

  /** A tick with a failed job ends polling with that failure: the upload is not completed
      on a later tick whose jobs all succeeded. */
  lemma NoCompletionAfterFailedTick(upload: Call -> Result<string, Error>)
    ensures var server := Server(Ok("w"), upload,
                                 [Ok([UploadJob("a", Failed)]), Ok([UploadJob("a", Success)])], None);
            !PollingEnded(server, Completed, true, Poller(["a"], [], false), 2)
  {
    var server := Server(Ok("w"), upload,
                         [Ok([UploadJob("a", Failed)]), Ok([UploadJob("a", Success)])], None);
    assert FailedIds(server.statuses[0].value) == ["a"];
  }

  /** The polling loop: `update` while `ongoing`, stopping at the first status request
      that fails or the first tick that leaves a failed job, or when the scripted status
      answers run out. `failure` is what the loop raises. */
  method Poll(server: Server) returns (poller: Poller, ticks: nat, failure: Option<Error>)
    ensures ticks <= |server.statuses|
    ensures PolledThrough(server, ticks, poller)
    ensures NoDuplicates(poller.successful)
    ensures |server.statuses| > 0 ==> ticks >= 1
    ensures 0 < ticks && server.statuses[ticks - 1].Ok? ==> LastTickRead(server, ticks, poller)
    ensures failure.None? ==> poller.failed == [] && (poller.ongoing ==> ticks == |server.statuses|)
    ensures failure.None? ==> (0 < ticks ==> server.statuses[ticks - 1].Ok?) && (!poller.ongoing ==> 0 < ticks)
    ensures failure.Some? ==>
              && 0 < ticks
              && (server.statuses[ticks - 1].Err? ==> failure.value == server.statuses[ticks - 1].error
                                                      && poller.failed == [])
              && (server.statuses[ticks - 1].Ok? ==> poller.failed != [] && failure.value == FailedJobs(poller.failed))
  {
    poller, ticks, failure := Fresh, 0, None;
    while poller.ongoing && ticks < |server.statuses| && failure.None?
      invariant PollInvariant(server, ticks, poller, failure)
      decreases |server.statuses| - ticks
    {
      TickKeeps(server, ticks, poller);
      poller, failure := Tick(poller, server.statuses[ticks]).0, Tick(poller, server.statuses[ticks]).1;
      ticks := ticks + 1;
    }
  }

  /** The polling phase and the completion: the polling loop, then `complete_upload` once
      polling has settled. */
  method PollAndComplete(server: Server, wrapperId: string)
    returns (outcome: Outcome, tail: seq<Call>, poller: Poller, ticks: nat)
    ensures PollLog(tail, wrapperId, ticks)
    ensures |server.statuses| > 0 ==> ticks >= 1
    ensures PollingEnded(server, outcome, Finalised(tail), poller, ticks)
  {
    var failure;
    poller, ticks, failure := Poll(server);
    if failure.Some? {
      outcome, tail := Raised(failure.value), Polls(wrapperId, ticks);
    } else if poller.ongoing {
      outcome, tail := StillPolling, Polls(wrapperId, ticks);
    } else {
      tail := Polls(wrapperId, ticks) + [CompleteCall(wrapperId)];
      outcome := if server.complete.Some? then Raised(server.complete.value) else Completed;
    }
  }

  /** The driver's log: the creation, the uploads sent, then the polling phase's requests.
      Every request after the first is about the wrapper, and the log is finalised exactly
      when the polling phase is. */
  lemma JoinLog(create: Call, sent: seq<Call>, tail: seq<Call>, wrapperId: string, ticks: nat)
    requires create.CreateWrapperCall?
    requires forall k :: 0 <= k < |sent| ==> UploadsTo(sent[k], wrapperId)
    requires PollLog(tail, wrapperId, ticks)
    ensures var calls := [create] + sent + tail;
            && calls[..1 + |sent|] == [create] + sent
            && calls[1 + |sent|..] == tail
            && (forall k :: 0 < k < |calls| ==> CarriesWrapper(calls[k], wrapperId))
            && (Finalised(calls) <==> Finalised(tail))
  {
    var calls := [create] + sent + tail;
    assert forall k :: 0 < k <= |sent| ==> calls[k] == sent[k - 1];
    assert forall k :: 1 + |sent| <= k < |calls| ==> calls[k] == tail[k - 1 - |sent|];
  }

  /** How the driver's run went once the wrapper `wrapperId` existed and the files had been
      submitted: the log is the creation, the uploads sent, and the polling phase's
      requests, all but the first about the wrapper; the first upload failure is raised
      before any status request; otherwise polling and completion ended as
      `PollingEnded` says. */
  predicate RanWithWrapper(server: Server, wrapperId: string, create: Call, attempts: seq<Attempt>,
                           outcome: Outcome, calls: seq<Call>, poller: Poller, ticks: nat)
  {
    && |calls| >= 1 + |Sent(attempts)|
    && calls[..1 + |Sent(attempts)|] == [create] + Sent(attempts)
    && PollLog(calls[1 + |Sent(attempts)|..], wrapperId, ticks)
    && (forall k :: 0 < k < |calls| ==> CarriesWrapper(calls[k], wrapperId))
    && (FirstFailure(attempts).Some? ==>
          outcome == Raised(FirstFailure(attempts).value) && ticks == 0 && !Finalised(calls))
    && (FirstFailure(attempts).None? ==>
          && (|server.statuses| > 0 ==> ticks >= 1)
          && PollingEnded(server, outcome, Finalised(calls), poller, ticks))
  }

  /** What the driver does once the wrapper `wrapperId` exists and the files have been
      submitted: raise the first upload failure, or poll and complete. */
  method RunWithWrapper(attempts: seq<Attempt>, server: Server, wrapperId: string, create: Call)
    returns (outcome: Outcome, calls: seq<Call>, poller: Poller, ticks: nat)
    requires create.CreateWrapperCall?
    requires forall i :: 0 <= i < |attempts| && attempts[i].sent.Some? ==> UploadsTo(attempts[i].sent.value, wrapperId)
    ensures RanWithWrapper(server, wrapperId, create, attempts, outcome, calls, poller, ticks)
  {
    var sent, failure := Sent(attempts), FirstFailure(attempts);
    SentCarriesWrapper(attempts, wrapperId);
    var tail;
    if failure.Some? {
      outcome, tail, poller, ticks := Raised(failure.value), [], Fresh, 0;
    } else {
      outcome, tail, poller, ticks := PollAndComplete(server, wrapperId);
    }
    calls := [create] + sent + tail;
    JoinLog(create, sent, tail, wrapperId, ticks);
  }

  /** `create_dataset_and_upload_many_files`, with the uploads run one after another in
      submission order. Every file is attempted even when an earlier one fails, as every
      future is submitted before any result is read; the first failure in submission order
      is the one raised. */
  method CreateDatasetAndUploadManyFiles(isFile: string -> bool, server: Server, paths: seq<string>,
                                         name: string, description: string)
    returns (outcome: Outcome, calls: seq<Call>, attempts: seq<Attempt>, poller: Poller, ticks: nat)
    ensures |calls| >= 1 && calls[0] == CreateWrapperCall(name, description)
    ensures server.createWrapper.Err? ==> |calls| == 1 && outcome == Raised(server.createWrapper.error)
    ensures server.createWrapper.Ok? ==>
              forall k :: 0 < k < |calls| ==> CarriesWrapper(calls[k], server.createWrapper.value)
    ensures server.createWrapper.Ok? && |paths| == 0 ==>
              |calls| == 1 && outcome == Raised(NoWorkers) && KindOf(outcome.error) == ValueError
    ensures server.createWrapper.Ok? && |paths| > 0 ==>
              Submitted(isFile, server, server.createWrapper.value, paths, attempts)
    ensures server.createWrapper.Ok? && |paths| > 0 ==>
              RanWithWrapper(server, server.createWrapper.value, CreateWrapperCall(name, description), attempts,
                             outcome, calls, poller, ticks)
  {
    poller, ticks, attempts := Fresh, 0, [];
    var create := CreateWrapperCall(name, description);
    calls := [create];
    if server.createWrapper.Err? {
      outcome := Raised(server.createWrapper.error);
      return;
    }
    var w := server.createWrapper.value;
    if Workers(|paths|) == 0 {
      outcome := Raised(NoWorkers);
      return;
    }
    attempts := SubmitAll(isFile, server, w, paths);
    outcome, calls, poller, ticks := RunWithWrapper(attempts, server, w, create);
  }

  /** A log that settled ends with the completion after one status request per tick. */
  lemma SettledLogLength(calls: seq<Call>, n: nat, wrapperId: string, ticks: nat)
    requires 0 < n <= |calls| && !calls[n - 1].CompleteCall?
    requires PollLog(calls[n..], wrapperId, ticks) && Finalised(calls)
    ensures |calls| == n + ticks + 1
  {
    var tail := calls[n..];
    if |tail| > 0 {
      assert tail[|tail| - 1] == calls[|calls| - 1];
    }
  }

  /** A valid file whose upload the service accepts sends its request and does not fail. */
  lemma ValidUploadSucceeds(isFile: string -> bool, server: Server, wrapperId: string, path: string)
    requires ValidateFile(isFile, path).Ok?
    requires server.upload(UploadCall(wrapperId, path, ValidateFile(isFile, path).value)).Ok?
    ensures AttemptUpload(isFile, server, wrapperId, path).sent.Some?
    ensures AttemptUpload(isFile, server, wrapperId, path).failure.None?
  {
  }

  /** Two attempts that sent and did not fail: nothing is raised and both requests went out. */
  lemma BothSucceeded(a: Attempt, b: Attempt)
    requires a.sent.Some? && a.failure.None? && b.sent.Some? && b.failure.None?
    ensures FirstFailure([a, b]).None?
    ensures Sent([a, b]) == [a.sent.value, b.sent.value]
  {
    assert [a, b][..1] == [a];
  }

  /** When no attempt failed and all were sent, nothing is raised and every request went out. */
  lemma AllSucceeded(attempts: seq<Attempt>)
    requires forall i :: 0 <= i < |attempts| ==> attempts[i].sent.Some? && attempts[i].failure.None?
    ensures FirstFailure(attempts).None?
    ensures |Sent(attempts)| == |attempts|
  {
    SentAll(attempts);
  }

  /** Valid files whose uploads the service accepts: no upload fails, and every file's
      request is sent. */
  lemma ValidUploadsSucceed(isFile: string -> bool, server: Server, wrapperId: string, paths: seq<string>,
                            attempts: seq<Attempt>)
    requires forall k :: 0 <= k < |paths| ==> ValidateFile(isFile, paths[k]).Ok?
    requires forall c: Call :: server.upload(c).Ok?
    requires Submitted(isFile, server, wrapperId, paths, attempts)
    ensures FirstFailure(attempts).None?
    ensures |Sent(attempts)| == |paths|
  {
    forall i | 0 <= i < |attempts|
      ensures attempts[i].sent.Some? && attempts[i].failure.None?
    {
      ValidUploadSucceeds(isFile, server, wrapperId, paths[i]);
    }
    AllSucceeded(attempts);
  }

  /** The two scripted ticks: the first keeps polling, the second settles, neither fails. */
  lemma ScenarioTicks(one: string, two: string)
    ensures AnyProcessing([UploadJob(one, Processing), UploadJob(two, Success)])
    ensures !AnyProcessing([UploadJob(one, Success), UploadJob(two, Success)])
    ensures FailedIds([UploadJob(one, Processing), UploadJob(two, Success)]) == []
    ensures FailedIds([UploadJob(one, Success), UploadJob(two, Success)]) == []
  {
    var first, settled := [UploadJob(one, Processing), UploadJob(two, Success)], [UploadJob(one, Success), UploadJob(two, Success)];
    assert first[0].status == Processing;
    assert first[1..] == settled[1..] == [UploadJob(two, Success)];
    assert [UploadJob(two, Success)][1..] == [];
    assert FailedIds([UploadJob(two, Success)]) == [];
    assert FailedIds(first) == FailedIds(first[1..]);
    assert FailedIds(settled) == FailedIds(settled[1..]);
  }

  /** A processing tick and then a settled one, with no failed job and an accepted
      completion: polling ends after the second tick, and the upload completes. */
  lemma TwoTicksComplete(one: string, two: string, server: Server, outcome: Outcome, finalised: bool, poller: Poller, ticks: nat)
    requires |server.statuses| == 2 && server.complete.None?
    requires server.statuses[0] == Ok([UploadJob(one, Processing), UploadJob(two, Success)])
    requires server.statuses[1] == Ok([UploadJob(one, Success), UploadJob(two, Success)])
    requires ticks >= 1 && PollingEnded(server, outcome, finalised, poller, ticks)
    ensures ticks == 2 && finalised && outcome == Completed
  {
    ScenarioTicks(one, two);
  }

  /** A tick in which one job is still processing and the other has failed ends polling
      at once: the failed job is raised as an `IOError` and the upload is not completed. */
  lemma FailedTickRaises(one: string, two: string, server: Server, outcome: Outcome, finalised: bool, poller: Poller, ticks: nat)
    requires |server.statuses| == 1
    requires server.statuses[0] == Ok([UploadJob(one, Processing), UploadJob(two, Failed)])
    requires ticks >= 1 && PollingEnded(server, outcome, finalised, poller, ticks)
    ensures ticks == 1 && !finalised
    ensures outcome == Raised(FailedJobs([two])) && KindOf(outcome.error) == IOError
  {
    var jobs := [UploadJob(one, Processing), UploadJob(two, Failed)];
    assert jobs[1..] == [UploadJob(two, Failed)];
    assert [UploadJob(two, Failed)][1..] == [];
    assert FailedIds([UploadJob(two, Failed)]) == [two];
    assert FailedIds(jobs) == [two];
  }

  /** Two uploads the service accepted, one processing tick and then a tick with both
      jobs done: the run completes, having sent six requests. With `ValidUploadsSucceed`,
      this is the run of the driver on two valid files. */
  method TwoUploadsScenario(one: string, two: string, server: Server, wrapperId: string, a: Attempt, b: Attempt, create: Call)
    returns (outcome: Outcome, calls: seq<Call>)
    requires create.CreateWrapperCall?
    requires a.sent.Some? && a.failure.None? && UploadsTo(a.sent.value, wrapperId)
    requires b.sent.Some? && b.failure.None? && UploadsTo(b.sent.value, wrapperId)
    requires |server.statuses| == 2 && server.complete.None?
    requires server.statuses[0] == Ok([UploadJob(one, Processing), UploadJob(two, Success)])
    requires server.statuses[1] == Ok([UploadJob(one, Success), UploadJob(two, Success)])
    ensures outcome == Completed
    ensures calls == [create, a.sent.value, b.sent.value, StatusCall(wrapperId), StatusCall(wrapperId),
                      CompleteCall(wrapperId)]
  {
    BothSucceeded(a, b);
    var poller, ticks;
    outcome, calls, poller, ticks := RunWithWrapper([a, b], server, wrapperId, create);
    TwoTicksComplete(one, two, server, outcome, Finalised(calls), poller, ticks);
    SettledLogLength(calls, 3, wrapperId, ticks);
    assert calls[3..] == Polls(wrapperId, 2) + [CompleteCall(wrapperId)];
    assert calls == calls[..3] + calls[3..];
  }
}

=== FILE: values.dfy ===
/** Feature values as the codec layer sees them, each tagged with the native Python type
    that an encoder's `isinstance` check looks for. */
module Values {
  import opened Results

  /** One byte of a serialised payload. */
  newtype byte = x: int | 0 <= x < 256

  type Bytes = seq<byte>

  /** The native types the five encoders accept: `int`, `float`, `str`, `dict`,
      `numpy.ndarray` and `PIL.Image.Image`. */
  datatype Tag = IntTag | FloatTag | StrTag | DictTag | NdArrayTag | ImageTag

  /** A feature value. The client never computes with floating-point numbers or pixels,
      it only hands them to foreign serialisers, so those stay opaque bit patterns. */
  datatype Value =
    | Int(i: int)
    | Float(bits: nat)
    | Str(s: string)
      /** A category-probability mapping. */
    | Dict(entries: map<string, Value>)
      /** A dense array: its shape and its elements, row-major. */
    | NdArray(shape: seq<nat>, data: seq<nat>)
      /** An in-memory image: its format tag (`PNG`, `JPEG`, ... or none), its mode
          (`RGB`, `RGBA`, `L`, `LA`, ...) and its pixel data. */
    | Image(format: Option<string>, mode: string, pixels: seq<nat>)

  function TagOf(v: Value): Tag {
    match v
    case Int(_) => IntTag
    case Float(_) => FloatTag
    case Str(_) => StrTag
    case Dict(_) => DictTag
    case NdArray(_, _) => NdArrayTag
    case Image(_, _, _) => ImageTag
  }
}
